=== FILE: README.md ===
# Classes helper, modelled in Dafny

A model of the static helper class `CodexSoft\Code\Classes\Classes` (codexsoft/code-classes), with proofs about it. The class is a thin convenience layer over PHP reflection. It provides:

- hierarchy queries: first common parent, parent-class list, same-or-extends, implements, and the interface method lookup;
- class-name string helpers: namespace, short name;
- class-constant and public-property helpers;
- rendering of reflected method signatures, used to generate stub declarations.

PHP's runtime is replaced by an abstract `Runtime.World`: a map from class name to `ClassInfo`. Each entry holds the parent, a depth that makes walks up the hierarchy terminate, the transitively closed interface list, the method names, the ordered constants and the ordered properties. `Runtime.Valid` states what PHP guarantees of loaded classes:

- a parent is a loaded, non-interface class that sits higher;
- interfaces and methods are inherited;
- interface lists are closed;
- constant names are distinct.

The "object or class name" arguments become `ClassRef`: `Instance`, a live object of the class, or `Named`, a class name. `isMethodDeclaredInInterface` and `grabConstantsFromClass` also accept a `ReflectionClass`, which the code uses as it is; for those two, an `Instance` also stands for a reflection of its class. `firstCommonParent`, `getParentClasses`, `isSameOrExtends`, `getIsSameOrExtends`, `shortClass` and `short` turn an object into its class name with `get_class`. `isImplements` hands its argument to `class_implements`, which does the same. Either built-in would take a `ReflectionClass` object as the class `ReflectionClass` itself. `implement`, `grabPrefixedConstantsFromClass`, `getConstantNameByValue` and the two property helpers take a class name only. Exceptions that escape become `Err` values of a `Result`. Those caught inside the helper become `None` (PHP `null`/`false`).

Modules, one per file:

- `Wrappers`: `Option`, `Result`.
- `Seqs`: order-preserving filter, map and collect.
- `PhpStrings`: the PHP string built-ins used (`explode`, `implode`, `substr_count`, `str_replace`, `basename`, concatenation, decimal rendering).
- `Runtime`: the reflection world.
- `Hierarchy`: `firstCommonParent`, `getParentClasses`, `isSameOrExtends`, `isImplements`, `implement`, `isMethodDeclaredInInterface`.
- `Names`: `isNamespaced`, `getNamespace`, `shortClass`, `short`.
- `Constants`: the constant grabbers and `getConstantNameByValue`.
- `Properties`: the two public-property helpers.
- `Signatures`: `getMethodParameters`, `generateMethodWithoutBody`.
- `Examples`: the documented examples and the unit test, over concrete worlds.

Notes on the code's behaviour that the model keeps:

- `isSameOrExtends` relies on `is_subclass_of`, which also accepts implemented interfaces.
- The recursive interface search is one level deep: the nested call passes `$recursiveSearch` as `$searchInInterfaceClass` and keeps its own defaults.
- In `firstCommonParent`, a class that is not loaded has the chain of itself alone, because `get_parent_class` answers `false` for it (PHP 7). Given together with a loaded class, the result is therefore `false`. Given alone, the result is its own name.
- `grabConstantsFromClass` uses constant values as array keys, so a string that spells an integer, such as `'1'`, is stored under that integer and collides with a constant whose value is the integer.
- The `foreach` of `getMethodParameters` throws from inside the loop at the first declared parameter whose class is not loaded. `Signatures.CollectFrom` writes that loop as tail recursion, and `Signatures.ListSoFar` is its reference definition.
- Among typed parameters other than `self`, only the four type names `string`, `int`, `float` and `bool` are written without a backslash. A `self`-typed parameter is written as the bare class name that `getClass()` returns. The model renders parameter lists as the code writes them; see Findings.

## Model

| member | source | states |
|---|---|---|
| Hierarchy.Chain | src/Classes.php:64-68 | the do/while list of one input starts with the input itself |
| Hierarchy.ChainShape | src/Classes.php:64-68 | each collected name is followed by its `get_parent_class`, the last has no parent, and every later name is a loaded class higher up |
| Hierarchy.ChainDistinct | src/Classes.php:64-68 | the walk never meets a class twice |
| Hierarchy.ChainTransitive | src/Classes.php:64-68 | the chain of any class on a chain is contained in that chain |
| Hierarchy.ChainInheritsInterfaces | src/Classes.php:64-68 | every class on the chain of a loaded class is loaded, and its interfaces are interfaces of the class |
| Hierarchy.InAllChainsEvery | src/Classes.php:57-75 | surviving the fold of intersections means lying in the chain of every input |
| Hierarchy.CommonAncestors | src/Classes.php:56-75 | after the loop, `$common_ancestors` is the first input's chain, in order, restricted to the classes in every chain |
| Hierarchy.CommonAncestorsStep | src/Classes.php:70-74 | one `array_intersect` narrows the kept classes by membership in the next chain |
| Hierarchy.FirstCommonParent | src/Classes.php:53-79 | `false` iff no class of the first chain is in all chains; otherwise the result is in all chains, and no class of the first chain before it is |
| Hierarchy.FirstCommonParentIs | src/Classes.php:53-79 | conversely, the earliest class of the first chain that lies in all chains is the result |
| Hierarchy.CommonAncestorsEmpty | src/Classes.php:77 | `reset` finds nothing exactly when no class of the first chain is common to all |
| Hierarchy.CommonAncestorsFirst | src/Classes.php:77 | the first survivor lies in all chains and precedes every other common class of the first chain |
| Hierarchy.FirstCommonParentUnknown | src/Classes.php:47-48 | a class that is not loaded, given with a loaded one, yields `false` |
| Hierarchy.ParentClassesFrom | src/Classes.php:98-104 | the walk collects a prefix of the strict ancestors, none equal to a truthy `$until`, and stops only at the root or right before `$until` |
| Hierarchy.GetParentClasses | src/Classes.php:91-106 | the result is the strict ancestors nearest first, cut before `$until`, never containing `$until`; when it stops short of the root, the next ancestor is `$until` |
| Hierarchy.ParentClassesFull | src/Classes.php:83-84 | without a truthy `$until`, or with one that is no ancestor, the result is every strict ancestor |
| Hierarchy.ParentClassesUntil | src/Classes.php:85 | with `$until` the k-th ancestor the result is the k-1 ancestors below it, so it is empty when `$until` is the parent |
| Hierarchy.ParentClassesExclude | src/Classes.php:99-101 | the result contains neither the class itself nor `$until` |
| Hierarchy.IsSameOrExtends | src/Classes.php:148-153 | every class is the same as itself, and a class that is not loaded extends nothing else |
| Hierarchy.GetIsSameOrExtends | src/Classes.php:490-493 | the alias holds iff the second class is on the first's ancestor-or-self chain or among its interfaces |
| Hierarchy.IsSameOrExtendsChain | src/Classes.php:148-153 | same-or-extends holds iff the second class is on the first's chain or among its interfaces; an instance answers as its class name |
| Hierarchy.IsSameOrExtendsAncestors | src/Classes.php:148-153 | same-or-extends is reflexive and holds for every class `getParentClasses` lists |
| Hierarchy.IsSameOrExtendsTransitive | src/Classes.php:148-153 | same-or-extends is transitive |
| Hierarchy.IsSameOrExtendsAntisymmetric | src/Classes.php:148-153 | two classes that extend each other are the same |
| Hierarchy.IsImplements | src/Classes.php:126-129 | fails exactly for a class that is not loaded |
| Hierarchy.Implement | src/Classes.php:477-480 | fails exactly for a class that is not loaded; otherwise true iff the interface is in `class_implements` |
| Hierarchy.IsImplementsExtends | src/Classes.php:126-129 | a loaded class implements exactly the supertypes of same-or-extends that are not on its class chain |
| Hierarchy.IsMethodDeclaredInInterface | src/Classes.php:303-329 | fails exactly for a name that is not loaded; otherwise true iff the class itself is searched and has the method, or the recursive search finds it in a non-skipped interface one level down |
| Hierarchy.SearchUsedInterfaces | src/Classes.php:316-325 | the `foreach` answers true iff some non-skipped interface has the method, and the nested call searches it |
| Hierarchy.SearchInSelfSuffices | src/Classes.php:310-314 | when the class itself is searched, the answer is whether it has the method; the recursive part adds nothing |
| Names.IsNamespaced | src/Classes.php:155-158 | true iff the name contains a backslash |
| Names.GetNamespace | src/Classes.php:160-171 | empty without a backslash; otherwise the namespace, a backslash and the last segment rebuild the name |
| Names.ShortClass | src/Classes.php:181-191 | the short name contains neither a backslash nor a slash |
| Names.Short | src/Classes.php:500-503 | the alias has the same guarantee as `shortClass` |
| Names.ShortClassIsLastSegment | src/Classes.php:181-191 | for a class name, the short name is the last segment; namespace, separator and short name rebuild the name; an unnamespaced name is its own short name |
| Names.ShortIsLastPiece | src/Classes.php:188-190 | replacing separators by `/` and taking `basename` twice keeps exactly the last segment |
| Names.NamespaceThenShort | src/Classes.php:160-191 | `getNamespace`, a backslash and `shortClass` rebuild a namespaced class name |
| Names.ShortOfPlainName | src/Classes.php:181-191 | a name outside any namespace is its own short name |
| Constants.IndexConstants | src/Classes.php:348-353 | every constant that passes the prefix filter is a key of the result, and maps to its value unless a later selected constant wrote the same key |
| Constants.IndexConstantsKeys | src/Classes.php:348-353 | the keys written are exactly those of the selected constants |
| Constants.DecimalStringKey | src/Classes.php:351 | the decimal spelling of a 64-bit integer, used as an array key, is stored as that integer |
| Constants.IntegerKeySpelling | src/Classes.php:351 | conversely, a string stored as an integer key is exactly that integer's decimal spelling |
| Constants.ArrayKeyCollision | src/Classes.php:351 | two distinct constant values share a key only when one is an integer and the other its decimal spelling |
| Constants.GrabConstantsFromClass | src/Classes.php:339-356 | fails exactly for a class that is not loaded; keys are the array keys of the selected values; a key written by no later selected constant maps to its constant's name |
| Constants.GrabPrefixedConstantsFromClass | src/Classes.php:368-381 | fails exactly for a class that is not loaded; keys are exactly the selected names, and when constant names are distinct (as PHP guarantees) each maps to its value |
| Constants.FirstNameWithValue | src/Classes.php:459-463 | `None` iff no selected constant has the value; otherwise the earliest selected constant with that value |
| Constants.GetConstantNameByValue | src/Classes.php:455-467 | `null` for a class that is not loaded, and any name found passes the prefix filter |
| Constants.PrefixedEntries | src/Classes.php:374-379 | the prefixed array in key order lists only selected constants, as name and value pairs, and lists every selected constant |
| Constants.PrefixedEntriesInDeclarationOrder | src/Classes.php:374-379 | in key order, the prefixed array is the selected constants in declaration order, each paired with its value |
| Constants.EntryOrigin | src/Classes.php:374-379 | every listed entry is the name and value of a selected constant |
| Constants.EntryPosition | src/Classes.php:374-379 | every selected constant is listed with its name and value |
| Constants.PrefixedEntriesDistinct | src/Classes.php:374-379 | with distinct constant names, no key of the prefixed array is listed twice |
| Constants.PrefixedEntriesInArray | src/Classes.php:368-381 | every listed entry of a loaded class is an association of the prefixed array |
| Constants.PrefixedArrayInOrder | src/Classes.php:368-381 | the listed entries hold exactly the associations of the prefixed array, each key once |
| Constants.FirstKeyWithValue | src/Classes.php:459-463 | `None` iff no entry has the value; otherwise the key of the first entry, in array order, whose value is identical to it |
| Constants.FirstNameIsFirstEntry | src/Classes.php:459-463 | the earliest selected constant with the value is the first match when the prefixed array is walked in key order |
| Constants.NameByValueScansArray | src/Classes.php:455-467 | the lookup walks the prefixed array of a loaded class in key order and returns the first key with the value, and `null` for a class that is not loaded |
| Constants.ConstantNameByValueInPrefixed | src/Classes.php:455-467 | a name found maps to the value in the prefixed array; none is found iff the value is absent from it or the class cannot be reflected |
| Constants.NameByValueIsKey | src/Classes.php:458-462 | a name found is a key of the prefixed array holding the value |
| Constants.NameByValueMissing | src/Classes.php:455-467 | nothing is found iff the class cannot be reflected or the value is absent |
| Constants.PrefixedValueIsFound | src/Classes.php:458-463 | every value of the prefixed array is found |
| Constants.GrabbedNameIsNameByValue | src/Classes.php:339-356 | when only one selected constant has the array key of a value, the value-to-name array and the lookup by value agree on its name |
| Constants.NameByValueRoundTrip | src/Classes.php:455-467 | looking up the value of a selected constant whose value no other selected constant shares gives its name back |
| Properties.PublicPropertiesCountOrNull | src/Classes.php:421-436 | `null` iff the class is not loaded; otherwise the number of public properties, zero iff none is public |
| Properties.GetSinglePublicReflectionPropertyOrNull | src/Classes.php:390-413 | non-null iff the class is loaded with exactly one public property, which is then returned |
| Properties.OnlyPublic | src/Classes.php:397-405 | with a count of one, the last public property seen is the only public property |
| Signatures.VarNameShape | src/Classes.php:212-219 | a variable is `$` and the parameter's own name, or `$arg<i>` for an empty or `...` name |
| Signatures.ArgNamesDiffer | src/Classes.php:217-219 | `$arg<i>` differs for different positions |
| Signatures.VarNamesDiffer | src/Classes.php:212-219 | parameters at different positions get different variables when their names differ and none looks like `arg<digits>` |
| Signatures.VarNamesDistinct | src/Classes.php:211-219 | under the same condition all variables of a list are distinct |
| Signatures.ParamTypeHintAsWritten | src/Classes.php:239-244 | a type hint is the type name with or without a leading backslash, followed by a space |
| Signatures.ParamTypeHintShape | src/Classes.php:239-244 | the corrected hint is the return-type spelling plus a space, with a backslash exactly for a class type |
| Signatures.ArrayHintAsWritten | src/Classes.php:240-243 | a built-in `array` parameter is written `\array ` where `array ` is intended |
| Signatures.AsWrittenDiffersOnBuiltins | src/Classes.php:240-243 | the whitelist and the built-in flag disagree exactly on built-in types outside the four scalars |
| Signatures.QualifiedTypeNameShape | src/Classes.php:534-538 | a return type name gains a leading backslash exactly for a class type that is not `self` |
| Signatures.TypeDeclaration | src/Classes.php:239-269 | the type of a parameter fails exactly when no type, `array` or `callable` applies and `getClass()` throws, with the unmockable error of the method; a declared type ends the text, followed by a space |
| Signatures.TypeDeclarationIntended | src/Classes.php:239-269 | the corrected type declaration fails in the same cases, and writes a declared type as the return type is written at line 534 |
| Signatures.TypeDeclarationDiffers | src/Classes.php:240-243 | the written and the corrected type declarations differ exactly for a built-in type outside the four whitelisted names |
| Signatures.Piece | src/Classes.php:211-285 | one parameter's text fails exactly for a declaration whose class is not loaded |
| Signatures.CallPieceShape | src/Classes.php:281-285 | in a call a parameter never fails, ends with its variable, and starts with `&` exactly when passed by reference |
| Signatures.CallPieceIgnoresDeclaration | src/Classes.php:281-285 | in a call the type, nullability, optionality and default play no part: parameters agreeing on name, reference and spread give the same text |
| Signatures.DeclarationPieceOrder | src/Classes.php:235-284 | a declared parameter starts with `?` and its type exactly when it is typed and nullable, else with its type; it ends with `&`, the variable and the default when passed by reference, else with the type, the variable and the default |
| Signatures.VariadicPiece | src/Classes.php:221-227 | a declared variadic parameter ends with `...` and its variable, with no default |
| Signatures.OptionalPiece | src/Classes.php:271-278 | an optional parameter without an available default ends with ` = null` |
| Signatures.DefaultValuePiece | src/Classes.php:271-278 | a non-variadic parameter with an available default ends with ` = ` and the exported value |
| Signatures.ListSoFarFails | src/Classes.php:211-286 | the loop throws iff a declared parameter has a class that is not loaded |
| Signatures.ListSoFarCollects | src/Classes.php:211-286 | a loop that did not throw has collected the texts of the kept positions in order |
| Signatures.ParameterListFromLoop | src/Classes.php:207-289 | the finished loop, imploded with `, `, is the texts of the kept parameters |
| Signatures.ParameterListFails | src/Classes.php:251-264 | one parameter whose class is not loaded makes the declaration list fail |
| Signatures.ListSoFarErrStays | src/Classes.php:251-264 | once the loop has thrown, later positions do not change the outcome |
| Signatures.ParameterStep | src/Classes.php:211-284 | one turn of the loop, which skips a variadic position in a call, appends the parameter's text or throws, agrees with one more step of the reference loop `ListSoFar` |
| Signatures.CollectFrom | src/Classes.php:211-286 | the loop run on from any position agrees with the reference loop over all parameters |
| Signatures.CollectParameters | src/Classes.php:209-286 | the loop gives exactly the reference outcome: the collected texts, or the unmockable exception of the first declared parameter whose class is not loaded |
| Signatures.GetMethodParameters | src/Classes.php:207-289 | the result is the kept parameter texts joined by `, `; it fails iff a declared parameter's class is not loaded, with the unmockable error |
| Signatures.ModifiersShape | src/Classes.php:511-521 | the modifiers start with `abstract ` iff the method is abstract and end with ` static` iff it is static |
| Signatures.ReturnDeclaration | src/Classes.php:526-540 | the return part is empty iff there is no return type |
| Signatures.ReturnDeclarationShape | src/Classes.php:526-540 | a return part starts with `: `, has `?` next iff the type allows null, and ends with the qualified type name |
| Signatures.GenerateMethodWithoutBody | src/Classes.php:505-545 | fails iff the parameter list fails; otherwise the text is the newline, indentation, modifiers, name and parameter list, followed directly by the return part and `;`, with nothing in between |
| Examples.FirstCommonParentOfGAndE | src/Classes.php:38-39 | `(G, E)` gives `A` |
| Examples.FirstCommonParentOfGAndF | src/Classes.php:41-42 | `(new G, F)` gives `F` |
| Examples.FirstCommonParentOfCAndH | src/Classes.php:44-45 | `(C, H)` gives `false` |
| Examples.FirstCommonParentOfUnknown | src/Classes.php:47-48 | `(new B, X)` gives `false` |
| Examples.ParentClassesOfE | src/Classes.php:83-85 | `getParentClasses(E)` is `[D, C, B, A]` and `getParentClasses(E, B)` is `[D, C]` |
| Examples.FamilyIsSameOrExtends | tests/unit/ClassesTest.php:19-59 | every assertion of the unit test holds, for instances and names alike, and a grandparent does not extend its grandchild |
| Examples.StandardNames | src/Classes.php:173-191 | `LE\Application\Buro\Standard` has namespace `LE\Application\Buro` and short name `Standard` |
| Examples.StatusByValue | src/Classes.php:455-467 | among `STATUS_` constants the value 2 is found as `STATUS_BAD` |
| Examples.RepeatedValue | src/Classes.php:348-352 | for a value held twice, the lookup finds the first name and the value-to-name array keeps the last |
| Examples.SkipListExample | src/Classes.php:316-325 | skipping an interface does not hide a method that a non-skipped interface inherits from it |
| Examples.SampleDeclarationList | src/Classes.php:207-289 | `f(int $x, ?string $y = null, ...$rest)` is declared as `int $x, ?string $y = NULL, ...$rest` |
| Examples.SampleCallList | src/Classes.php:207-289 | the same method is called as `$x, $y` |
| Examples.ArrayParameterAsWritten | src/Classes.php:239-244 | `g(array $a)` is declared as `\array $a`, while the corrected type declaration is `array ` |
| Examples.CoercedKeys | src/Classes.php:348-352 | with `ONE = 1` and `STR = '1'` the value-to-name array is `[1 => 'STR']` |
| Examples.StrictLookup | src/Classes.php:459-462 | in the same class, looking up `1` finds `ONE` and looking up `'1'` finds `STR` |

## Left out

- The PHP reflection runtime is replaced by `Runtime.World`. Autoloading, `get_class`, `class_implements` and `ReflectionClass` construction become lookups in that map.
- `var_export` of a default value is taken as given text (`Param.defaultValue`).
- The `PHP_VERSION_ID >= 70100` gate on `?` is taken as true.
- A parameter or return type is its name. `getName()` and the string cast are taken to agree, as they do for the PHP 7 versions the class targets. Later versions put a `?` in front of the string form of a nullable type; that is not modelled.
- The deprecated `getClass()` branch is modelled only by its outcome: no class, a loaded class, or the exception. The text of the `RuntimeException` is not modelled, only its declaring class and method.
- Constants.GrabConstantsFromClass / Constants.GrabPrefixedConstantsFromClass: the result arrays are modelled as maps, so their key order is not part of these two members. For the value-to-name array, PHP keeps each key where it was first written while a later write replaces its value; that order is not modelled. For the prefixed array, whose keys are distinct constant names, the order is modelled separately by `Constants.PrefixedEntries`: `Constants.PrefixedEntriesInDeclarationOrder` shows it is the declaration order of the selected constants, and `Constants.PrefixedArrayInOrder` ties it to the map.
- Constant values are integers and strings only. Floats, booleans, `null` and arrays, and the key conversions PHP applies to them, are not modelled. Integer keys use the 64-bit range.
- `mb_strpos` is modelled as a plain prefix test on characters, without multibyte encodings.
- `basename` is modelled with `/` as the only separator. Locale and drive-letter behaviour are not modelled.
- Names.ShortClassIsLastSegment: requires a name without `/` and without a trailing backslash. `basename` strips trailing separators, so for such names the result is not the (empty) last segment.
- Names.ShortIsLastPiece: the same two requirements as `Names.ShortClassIsLastSegment`, for the same reason.
- Names.NamespaceThenShort: the same two requirements as `Names.ShortClassIsLastSegment`, for the same reason.
- Names.ShortOfPlainName: the same two requirements as `Names.ShortClassIsLastSegment`, for the same reason.
- Hierarchy.FirstCommonParent: requires a non-empty input list. `reset` on the initial `null` is not modelled.
- Hierarchy.IsImplements: a class that is not loaded is an error. PHP answers with a warning and a type error instead of `false`. The loose `in_array` comparison is plain equality, since interface names are strings.
- Method names are compared exactly; PHP's case-insensitive `hasMethod` is not modelled.
- Class names are compared exactly. `get_parent_class`, `ReflectionClass`, `class_implements` and `is_subclass_of` accept a name in any letter case, but the model treats a name that differs only in case as a class that is not loaded. For example, PHP gives `getParentClasses('e')` as `[D, C, B, A]`, while the model gives `[]`.
- Signatures.ReturnDeclarationShape: requires a type name not starting with `?`, because a leading `?` in the name would be indistinguishable from the nullable marker.
- The commented-out code in the class is not modelled.

## Findings

| source | as written | input that shows it | evidently intended | confidence | as-written member | corrected member |
|---|---|---|---|---|---|---|
| src/Classes.php:240-243 | a typed parameter gets a leading `\` unless its type is one of `string`, `int`, `float`, `bool` | a parameter `array $a` is rendered `\array $a`, which PHP reads as a class named `array` (likewise `callable`, `iterable`, `object`) | a backslash exactly for class types, as the return type does at line 534 with `isBuiltin()` | not executed | Examples.ArrayParameterAsWritten | Signatures.TypeDeclarationIntended |

`Signatures.TypeDeclaration`, and through it `getMethodParameters` and `generateMethodWithoutBody`, renders types as the code writes them, with `Signatures.ParamTypeHintAsWritten`. `Examples.ArrayParameterAsWritten` exhibits the resulting `\array $a`. The corrected `Signatures.TypeDeclarationIntended` uses `Signatures.ParamTypeHint`, whose shape `Signatures.ParamTypeHintShape` proves. `Signatures.TypeDeclarationDiffers` and `Signatures.AsWrittenDiffersOnBuiltins` show that the two disagree exactly on built-in types outside the whitelist.

=== FILE: constants.dfy ===
/** The class-constant helpers: `grabConstantsFromClass` (value to name),
    `grabPrefixedConstantsFromClass` (name to value) and
    `getConstantNameByValue`. */
module Constants {
  import opened Wrappers
  import opened Seqs
  import opened PhpStrings
  import opened Runtime

  /** The filter `!$prefix || mb_strpos($constant, $prefix) === 0`: a falsy
      prefix (`""` or `"0"`) keeps every constant, any other keeps the names
      that start with it. */
  predicate PrefixSelects(prefix: string, name: string) {
    !Truthy(prefix) || StartsWith(name, prefix)
  }

  /** The `foreach` over `getConstants()` shared by both grabbers: every
      constant that passes the prefix filter is written into the result
      array under `key`, with `val`; a later write to the same key replaces
      an earlier one. */
  function IndexConstants<K(==), V>(cs: seq<Constant>, prefix: string,
                                    key: Constant -> K, val: Constant -> V): (m: map<K, V>)
    ensures forall j :: 0 <= j < |cs| && PrefixSelects(prefix, cs[j].name) ==> key(cs[j]) in m
    ensures forall j :: 0 <= j < |cs| && PrefixSelects(prefix, cs[j].name)
                        && (forall l :: j < l < |cs| && PrefixSelects(prefix, cs[l].name)
                                        ==> key(cs[l]) != key(cs[j]))
                        ==> m[key(cs[j])] == val(cs[j])
    decreases |cs|
  {
    if |cs| == 0 then map[]
    else
      var init := cs[..|cs| - 1];
      var c := cs[|cs| - 1];
      var m := IndexConstants(init, prefix, key, val);
      assert forall j :: 0 <= j < |init| ==> init[j] == cs[j];
      if PrefixSelects(prefix, c.name) then m[key(c) := val(c)] else m
  }

  /** The keys written are exactly the keys of the selected constants. */
  lemma {:induction false} IndexConstantsKeys<K, V>(cs: seq<Constant>, prefix: string,
                                                        key: Constant -> K, val: Constant -> V)
    ensures IndexConstants(cs, prefix, key, val).Keys
            == set c | c in cs && PrefixSelects(prefix, c.name) :: key(c)
    decreases |cs|
  {
    if |cs| > 0 {
      var init := cs[..|cs| - 1];
      IndexConstantsKeys(init, prefix, key, val);
      assert forall x :: x in cs <==> x in init || x == cs[|cs| - 1];
    }
  }

  /** `PHP_INT_MIN` and `PHP_INT_MAX` of a 64-bit build. */
  const IntMin: int := -0x8000_0000_0000_0000
  const IntMax: int := 0x7FFF_FFFF_FFFF_FFFF

  /** The integer a string stands for as an array key, if PHP converts it:
      the canonical decimal spelling of an integer in range, that is an
      optional `-`, no leading zero, no `-0`, nothing else. */
  function IntegerKey(s: string): Option<int> {
    if |s| > 1 && s[0] == '-' && s[1] != '0' && AllDigits(s[1..]) && ParseNat(s[1..]) <= -IntMin then
      Some(-(ParseNat(s[1..]) as int))
    else if |s| > 0 && s[0] != '-' && AllDigits(s) && (s[0] != '0' || |s| == 1) && ParseNat(s) <= IntMax then
      Some(ParseNat(s))
    else None
  }

  /** The key `$result[$value]` is stored under: an integer stays, a string
      that spells an integer canonically becomes that integer, any other
      string stays. */
  function ArrayKey(v: ConstValue): ConstValue {
    match v
    case IntValue(_) => v
    case StringValue(s) =>
      match IntegerKey(s)
      case Some(i) => IntValue(i)
      case None => v
  }

  /** The decimal spelling of an integer, as PHP's string conversion gives it. */
  function DecimalString(i: int): string {
    if i < 0 then "-" + NatToString(-i) else NatToString(i)
  }

  /** The decimal spelling of an integer in range is stored as that integer. */
  lemma DecimalStringKey(i: int)
    requires IntMin <= i <= IntMax
    ensures ArrayKey(StringValue(DecimalString(i))) == IntValue(i)
  {
    if i < 0 {
      NegativeKey(-i);
    } else {
      NaturalKey(i);
    }
  }

  lemma NaturalKey(n: nat)
    requires n <= IntMax
    ensures IntegerKey(NatToString(n)) == Some(n)
  {
    NatToStringCanonical(n);
    ParseNatToString(n);
    var s := NatToString(n);
    assert s[0] != '-' by {
      assert '0' <= s[0] <= '9';
    }
  }

  lemma NegativeKey(n: nat)
    requires 0 < n <= -IntMin
    ensures IntegerKey("-" + NatToString(n)) == Some(-(n as int))
  {
    NatToStringCanonical(n);
    ParseNatToString(n);
    var s := "-" + NatToString(n);
    assert s[1..] == NatToString(n);
  }

  /** A string converted to an integer key is that integer's decimal spelling. */
  lemma IntegerKeySpelling(s: string)
    requires IntegerKey(s).Some?
    ensures s == DecimalString(IntegerKey(s).value)
  {
    if |s| > 1 && s[0] == '-' && s[1] != '0' && AllDigits(s[1..]) && ParseNat(s[1..]) <= -IntMin {
      var t := s[1..];
      ParseNatPositive(t);
      NatToStringParse(t);
      assert s == "-" + t;
    } else {
      NatToStringParse(s);
    }
  }

  /** Two distinct constant values share an array key exactly when one is an
      integer and the other its decimal spelling. */
  lemma ArrayKeyCollision(a: ConstValue, b: ConstValue)
    requires a != b && ArrayKey(a) == ArrayKey(b)
    ensures || (a.IntValue? && b == StringValue(DecimalString(a.i)))
            || (b.IntValue? && a == StringValue(DecimalString(b.i)))
  {
    if a.StringValue? && IntegerKey(a.s).Some? {
      IntegerKeySpelling(a.s);
    }
    if b.StringValue? && IntegerKey(b.s).Some? {
      IntegerKeySpelling(b.s);
    }
  }

  /** `grabConstantsFromClass($class, $prefix)`: constant value, used as an
      array key, to constant name. When keys repeat, the constant declared
      last wins; an integer and its decimal spelling are the same key. Here
      an `Instance` also stands for a `ReflectionClass` of the class, which
      the code uses as it is. */
  function GrabConstantsFromClass(w: World, c: ClassRef, prefix: string): (r: Result<map<ConstValue, string>, Error>)
    ensures r.Err? <==> Resolve(c) !in w.classes
    ensures r.Ok? ==>
              var cs := w.classes[Resolve(c)].constants;
              && r.value.Keys == (set k | k in cs && PrefixSelects(prefix, k.name) :: ArrayKey(k.value))
              && forall j :: 0 <= j < |cs| && PrefixSelects(prefix, cs[j].name)
                             && (forall l :: j < l < |cs| && PrefixSelects(prefix, cs[l].name)
                                             ==> ArrayKey(cs[l].value) != ArrayKey(cs[j].value))
                             ==> r.value[ArrayKey(cs[j].value)] == cs[j].name
  {
    var name := Resolve(c);
    if name !in w.classes then Err(ReflectionFailure(name))
    else
      IndexConstantsKeys(w.classes[name].constants, prefix, (k: Constant) => ArrayKey(k.value), (k: Constant) => k.name);
      Ok(IndexConstants(w.classes[name].constants, prefix, (k: Constant) => ArrayKey(k.value), (k: Constant) => k.name))
  }

  /** `grabPrefixedConstantsFromClass($class, $prefix)`: constant name to
      constant value, restricted to the names the prefix selects. */
  function GrabPrefixedConstantsFromClass(w: World, className: ClassName, prefix: string)
    : (r: Result<map<string, ConstValue>, Error>)
    ensures r.Err? <==> className !in w.classes
    ensures r.Ok? ==>
              var cs := w.classes[className].constants;
              && r.value.Keys == (set k | k in cs && PrefixSelects(prefix, k.name) :: k.name)
              && (ConstantNamesDistinct(cs) ==>
                    forall j :: 0 <= j < |cs| && PrefixSelects(prefix, cs[j].name)
                                ==> r.value[cs[j].name] == cs[j].value)
  {
    if className !in w.classes then Err(ReflectionFailure(className))
    else
      IndexConstantsKeys(w.classes[className].constants, prefix, (k: Constant) => k.name, (k: Constant) => k.value);
      Ok(IndexConstants(w.classes[className].constants, prefix, (k: Constant) => k.name, (k: Constant) => k.value))
  }

  /** The array `grabPrefixedConstantsFromClass` builds, listed in the order
      of its keys: the selected constants as (name, value) pairs, in
      declaration order. */
  function PrefixedEntries(cs: seq<Constant>, prefix: string): (r: seq<(string, ConstValue)>)
    ensures |r| <= |cs|
    ensures forall e :: e in r ==>
              exists c :: c in cs && PrefixSelects(prefix, c.name) && e == (c.name, c.value)
    ensures forall c :: c in cs && PrefixSelects(prefix, c.name) ==> (c.name, c.value) in r
    decreases |cs|
  {
    if |cs| == 0 then []
    else
      var rest := PrefixedEntries(cs[1..], prefix);
      assert forall c :: c in cs <==> c == cs[0] || c in cs[1..];
      if PrefixSelects(prefix, cs[0].name) then [(cs[0].name, cs[0].value)] + rest else rest
  }

  /** The prefix filter as a function value. */
  function Selects(prefix: string): Constant -> bool {
    (c: Constant) => PrefixSelects(prefix, c.name)
  }

  /** The key and value a constant contributes to the prefixed array. */
  function Entry(c: Constant): (string, ConstValue) {
    (c.name, c.value)
  }

  /** The constants a prefix selects, in order, and the entries they make,
      split at the first constant. */
  function SelectedHead(c: Constant, prefix: string): (head: seq<Constant>)
    ensures head == Filter([c], Selects(prefix))
    ensures Map(head, Entry) == if PrefixSelects(prefix, c.name) then [(c.name, c.value)] else []
  {
    assert [c][..0] == [];
    if PrefixSelects(prefix, c.name) then [c] else []
  }

  /** In key order, the prefixed array is the selected constants, in
      declaration order, each paired with its value. */
  lemma {:induction false} PrefixedEntriesInDeclarationOrder(cs: seq<Constant>, prefix: string)
    ensures PrefixedEntries(cs, prefix) == Map(Filter(cs, Selects(prefix)), Entry)
    decreases |cs|
  {
    if |cs| > 0 {
      var tail := cs[1..];
      var head := SelectedHead(cs[0], prefix);
      var rest := Filter(tail, Selects(prefix));
      PrefixedEntriesInDeclarationOrder(tail, prefix);
      assert cs == [cs[0]] + tail;
      FilterCons(cs[0], tail, Selects(prefix));
      assert Filter(cs, Selects(prefix)) == head + rest;
      MapAppend(head, rest, Entry);
    }
  }

  /** The constant a listed entry comes from. */
  lemma EntryOrigin(cs: seq<Constant>, prefix: string, i: nat) returns (j: nat)
    requires i < |PrefixedEntries(cs, prefix)|
    ensures j < |cs| && PrefixSelects(prefix, cs[j].name)
    ensures PrefixedEntries(cs, prefix)[i] == (cs[j].name, cs[j].value)
  {
    var es := PrefixedEntries(cs, prefix);
    assert es[i] in es;
    var c :| c in cs && PrefixSelects(prefix, c.name) && es[i] == (c.name, c.value);
    var k :| 0 <= k < |cs| && cs[k] == c;
    j := k;
  }

  /** The position at which a selected constant is listed. */
  lemma EntryPosition(cs: seq<Constant>, prefix: string, j: nat) returns (i: nat)
    requires j < |cs| && PrefixSelects(prefix, cs[j].name)
    ensures i < |PrefixedEntries(cs, prefix)|
    ensures PrefixedEntries(cs, prefix)[i] == (cs[j].name, cs[j].value)
  {
    var es := PrefixedEntries(cs, prefix);
    assert cs[j] in cs;
    var k :| 0 <= k < |es| && es[k] == (cs[j].name, cs[j].value);
    i := k;
  }

  /** No key is listed twice. */
  predicate KeysDistinct(entries: seq<(string, ConstValue)>) {
    forall i, l :: 0 <= i < l < |entries| ==> entries[i].0 != entries[l].0
  }

  /** Distinct constant names give distinct keys. */
  lemma {:induction false} PrefixedEntriesDistinct(cs: seq<Constant>, prefix: string)
    requires ConstantNamesDistinct(cs)
    ensures KeysDistinct(PrefixedEntries(cs, prefix))
    decreases |cs|
  {
    if |cs| > 0 {
      var tail := cs[1..];
      assert ConstantNamesDistinct(tail) by {
        assert forall j :: 0 <= j < |tail| ==> tail[j] == cs[j + 1];
      }
      PrefixedEntriesDistinct(tail, prefix);
      var rest := PrefixedEntries(tail, prefix);
      forall l | 0 <= l < |rest|
        ensures rest[l].0 != cs[0].name
      {
        var k := EntryOrigin(tail, prefix, l);
        assert tail[k] == cs[k + 1];
      }
      if PrefixSelects(prefix, cs[0].name) {
        var r := [(cs[0].name, cs[0].value)] + rest;
        assert PrefixedEntries(cs, prefix) == r;
        forall i, l | 0 <= i < l < |r|
          ensures r[i].0 != r[l].0
        {
          assert r[l] == rest[l - 1];
          if i > 0 {
            assert r[i] == rest[i - 1];
          }
        }
      } else {
        assert PrefixedEntries(cs, prefix) == rest;
      }
    }
  }

  /** Every listed entry of a loaded class is an association of the
      prefixed array. */
  lemma PrefixedEntriesInArray(w: World, className: ClassName, prefix: string)
    requires Valid(w) && className in w.classes
    ensures var g := GrabPrefixedConstantsFromClass(w, className, prefix).value;
            var es := PrefixedEntries(w.classes[className].constants, prefix);
            forall i :: 0 <= i < |es| ==> es[i].0 in g && g[es[i].0] == es[i].1
  {
    ValidAt(w, className);
    var cs := w.classes[className].constants;
    var es := PrefixedEntries(cs, prefix);
    var g := GrabPrefixedConstantsFromClass(w, className, prefix).value;
    forall i | 0 <= i < |es|
      ensures es[i].0 in g && g[es[i].0] == es[i].1
    {
      var j := EntryOrigin(cs, prefix, i);
    }
  }

  /** Listed in order, the prefixed array of a loaded class holds the same
      associations as the map of the model: every listed key maps to its
      listed value, every key is listed, and none twice. */
  lemma PrefixedArrayInOrder(w: World, className: ClassName, prefix: string)
    requires Valid(w) && className in w.classes
    ensures var g := GrabPrefixedConstantsFromClass(w, className, prefix).value;
            var es := PrefixedEntries(w.classes[className].constants, prefix);
            && (forall i :: 0 <= i < |es| ==> es[i].0 in g && g[es[i].0] == es[i].1)
            && (forall n :: n in g ==> exists i :: 0 <= i < |es| && es[i].0 == n)
            && KeysDistinct(es)
  {
    ValidAt(w, className);
    var cs := w.classes[className].constants;
    var g := GrabPrefixedConstantsFromClass(w, className, prefix).value;
    var es := PrefixedEntries(cs, prefix);
    PrefixedEntriesDistinct(cs, prefix);
    PrefixedEntriesInArray(w, className, prefix);
    forall n | n in g
      ensures exists i :: 0 <= i < |es| && es[i].0 == n
    {
      var j := SelectedNameIndex(cs, prefix, n);
      var i := EntryPosition(cs, prefix, j);
    }
  }

  /** The `foreach` of `getConstantNameByValue` over the prefixed array: the
      first key, in array order, whose value is identical to `value`. */
  function FirstKeyWithValue(entries: seq<(string, ConstValue)>, value: ConstValue): (r: Option<string>)
    ensures r.None? <==> forall i :: 0 <= i < |entries| ==> entries[i].1 != value
    ensures r.Some? ==>
              exists i :: 0 <= i < |entries| && entries[i] == (r.value, value)
                          && forall k :: 0 <= k < i ==> entries[k].1 != value
    decreases |entries|
  {
    if |entries| == 0 then None
    else if entries[0].1 == value then Some(entries[0].0)
    else
      var r := FirstKeyWithValue(entries[1..], value);
      assert forall k :: 0 < k < |entries| ==> entries[k] == entries[1..][k - 1];
      r
  }

  /** Scanning the constants for the first selected one with the value gives
      the same name as scanning the prefixed array in its key order. */
  lemma {:induction false} FirstNameIsFirstEntry(cs: seq<Constant>, prefix: string, value: ConstValue)
    ensures FirstNameWithValue(cs, prefix, value) == FirstKeyWithValue(PrefixedEntries(cs, prefix), value)
    decreases |cs|
  {
    if |cs| > 0 {
      FirstNameIsFirstEntry(cs[1..], prefix, value);
      var rest := PrefixedEntries(cs[1..], prefix);
      if PrefixSelects(prefix, cs[0].name) {
        var es := [(cs[0].name, cs[0].value)] + rest;
        assert PrefixedEntries(cs, prefix) == es;
        assert es[1..] == rest;
      }
    }
  }

  /** The first constant, in declaration order, that the prefix selects and
      whose value is identical (`===`) to `value`; `FirstNameIsFirstEntry`
      shows this is the first match in the prefixed array's key order. */
  function FirstNameWithValue(cs: seq<Constant>, prefix: string, value: ConstValue): (r: Option<string>)
    ensures r.None? <==>
              forall k :: 0 <= k < |cs| && PrefixSelects(prefix, cs[k].name) ==> cs[k].value != value
    ensures r.Some? ==>
              exists j :: 0 <= j < |cs| && cs[j].name == r.value && cs[j].value == value
                          && PrefixSelects(prefix, cs[j].name)
                          && forall k :: 0 <= k < j && PrefixSelects(prefix, cs[k].name) ==> cs[k].value != value
    decreases |cs|
  {
    if |cs| == 0 then None
    else if PrefixSelects(prefix, cs[0].name) && cs[0].value == value then Some(cs[0].name)
    else
      var r := FirstNameWithValue(cs[1..], prefix, value);
      assert forall k :: 0 < k < |cs| ==> cs[k] == cs[1..][k - 1];
      r
  }

  /** `getConstantNameByValue($value, $class, $constantPrefix)`: the name of
      the first selected constant holding `value`; `None` (PHP `null`) when
      there is none or when the class cannot be reflected. */
  function GetConstantNameByValue(w: World, value: ConstValue, className: ClassName, prefix: string)
    : (r: Option<string>)
    ensures className !in w.classes ==> r.None?
    ensures r.Some? ==> StartsWith(r.value, prefix) || !Truthy(prefix)
  {
    if className !in w.classes then None
    else FirstNameWithValue(w.classes[className].constants, prefix, value)
  }

  /** `getConstantNameByValue` walks the prefixed array of a loaded class
      in key order and returns the first key whose value is identical to
      `value`; for a class that is not loaded it returns `null`. */
  lemma NameByValueScansArray(w: World, value: ConstValue, className: ClassName, prefix: string)
    ensures GetConstantNameByValue(w, value, className, prefix)
            == if className in w.classes
               then FirstKeyWithValue(PrefixedEntries(w.classes[className].constants, prefix), value)
               else None
  {
    if className in w.classes {
      FirstNameIsFirstEntry(w.classes[className].constants, prefix, value);
    }
  }

  /** A name found by value is a key of the prefixed array mapping to that
      value; no name is found exactly when the value is absent from it. */
  lemma ConstantNameByValueInPrefixed(w: World, value: ConstValue, className: ClassName, prefix: string)
    requires Valid(w)
    ensures var r := GetConstantNameByValue(w, value, className, prefix);
            var g := GrabPrefixedConstantsFromClass(w, className, prefix);
            && (r.Some? ==> g.Ok? && r.value in g.value && g.value[r.value] == value)
            && (r.None? <==> g.Err? || value !in g.value.Values)
  {
    NameByValueIsKey(w, value, className, prefix);
    NameByValueMissing(w, value, className, prefix);
  }

  /** A name found by value maps to that value in the prefixed array. */
  lemma NameByValueIsKey(w: World, value: ConstValue, className: ClassName, prefix: string)
    requires Valid(w)
    ensures var r := GetConstantNameByValue(w, value, className, prefix);
            var g := GrabPrefixedConstantsFromClass(w, className, prefix);
            r.Some? ==> g.Ok? && r.value in g.value && g.value[r.value] == value
  {
    if className in w.classes {
      ValidAt(w, className);
    }
  }

  /** Nothing is found exactly when the value is not in the prefixed array. */
  lemma NameByValueMissing(w: World, value: ConstValue, className: ClassName, prefix: string)
    requires Valid(w)
    ensures var r := GetConstantNameByValue(w, value, className, prefix);
            var g := GrabPrefixedConstantsFromClass(w, className, prefix);
            r.None? <==> g.Err? || value !in g.value.Values
  {
    NameByValueIsKey(w, value, className, prefix);
    if className in w.classes {
      PrefixedValueIsFound(w, value, className, prefix);
    }
  }

  /** A value of the prefixed array is found by the lookup. */
  lemma PrefixedValueIsFound(w: World, value: ConstValue, className: ClassName, prefix: string)
    requires Valid(w) && className in w.classes
    ensures value in GrabPrefixedConstantsFromClass(w, className, prefix).value.Values ==>
              GetConstantNameByValue(w, value, className, prefix).Some?
  {
    var g := GrabPrefixedConstantsFromClass(w, className, prefix).value;
    ValidAt(w, className);
    var cs := w.classes[className].constants;
    if value in g.Values {
      var n :| n in g && g[n] == value;
      var j := SelectedNameIndex(cs, prefix, n);
      assert cs[j].value == value;
    }
  }

  /** A selected name is the name of some selected constant. */
  lemma SelectedNameIndex(cs: seq<Constant>, prefix: string, n: string) returns (j: nat)
    requires n in (set k | k in cs && PrefixSelects(prefix, k.name) :: k.name)
    ensures j < |cs| && cs[j].name == n && PrefixSelects(prefix, cs[j].name)
  {
    var k :| k in cs && PrefixSelects(prefix, k.name) && k.name == n;
    var i :| 0 <= i < |cs| && cs[i] == k;
    j := i;
  }

  /** When exactly one selected constant has the array key of `value`, the
      value-to-name array and the lookup by value agree on its name. */
  lemma GrabbedNameIsNameByValue(w: World, value: ConstValue, className: ClassName, prefix: string, j: nat)
    requires Valid(w) && className in w.classes
    requires var cs := w.classes[className].constants;
             && j < |cs| && cs[j].value == value && PrefixSelects(prefix, cs[j].name)
             && forall k :: 0 <= k < |cs| && k != j && PrefixSelects(prefix, cs[k].name)
                            ==> ArrayKey(cs[k].value) != ArrayKey(value)
    ensures var g := GrabConstantsFromClass(w, Named(className), prefix);
            g.Ok? && ArrayKey(value) in g.value
            && GetConstantNameByValue(w, value, className, prefix) == Some(g.value[ArrayKey(value)])
            && g.value[ArrayKey(value)] == w.classes[className].constants[j].name
  {
    var cs := w.classes[className].constants;
    var g := GrabConstantsFromClass(w, Named(className), prefix);
    assert g.value[ArrayKey(cs[j].value)] == cs[j].name;
    var r := FirstNameWithValue(cs, prefix, value);
    assert r.Some?;
    var i :| 0 <= i < |cs| && cs[i].name == r.value && cs[i].value == value && PrefixSelects(prefix, cs[i].name);
    assert i == j;
  }

  /** Looking a selected constant up by its own value gives its name back
      when no other selected constant shares that value. */
  lemma NameByValueRoundTrip(w: World, className: ClassName, prefix: string, name: string)
    requires Valid(w)
    requires var g := GrabPrefixedConstantsFromClass(w, className, prefix);
             g.Ok? && name in g.value
             && forall n :: n in g.value && n != name ==> g.value[n] != g.value[name]
    ensures GetConstantNameByValue(w, GrabPrefixedConstantsFromClass(w, className, prefix).value[name],
                                   className, prefix) == Some(name)
  {
    var g := GrabPrefixedConstantsFromClass(w, className, prefix).value;
    ValidAt(w, className);
    var cs := w.classes[className].constants;
    var j := SelectedNameIndex(cs, prefix, name);
    ConstantNameByValueInPrefixed(w, g[name], className, prefix);
  }
}

=== FILE: examples.dfy ===
/** The worked examples of the helper class's documentation comments and of
    its unit test, stated over small concrete class hierarchies. */
module Examples {
  import opened Wrappers
  import opened PhpStrings
  import opened Runtime
  import opened Hierarchy
  import opened Names
  import opened Constants
  import opened Signatures

  /** A loaded class with the given parent and depth, and nothing else. */
  function Plain(parent: Option<ClassName>, depth: nat): ClassInfo {
    ClassInfo(false, depth, parent, [], {}, [], [])
  }

  /** A loaded class that is neither an interface nor implements one, has no
      methods and no constants, and whose parent is such a class higher up. */
  predicate PlainAt(w: World, c: ClassName)
    requires c in w.classes
  {
    var info := w.classes[c];
    && !info.isInterface && info.interfaces == [] && info.methods == {} && info.constants == []
    && (info.parent.Some? ==>
          var p := info.parent.value;
          && p in w.classes && w.classes[p].depth < info.depth
          && !w.classes[p].isInterface && w.classes[p].interfaces == [] && w.classes[p].methods == {})
  }

  /** A world of plain classes meets what the runtime guarantees. */
  lemma PlainValid(w: World)
    requires forall c :: c in w.classes ==> PlainAt(w, c)
    ensures Valid(w)
  {
    forall c | c in w.classes ensures ClassValid(w, c) {
      assert PlainAt(w, c);
    }
  }

  /** The hierarchy of the `firstCommonParent` documentation: B and C extend
      A, D and E extend B, F extends C, G extends F, and H stands alone. */
  const Doc: World := World(map[
    "A" := Plain(None, 0),
    "B" := Plain(Some("A"), 1),
    "C" := Plain(Some("A"), 1),
    "D" := Plain(Some("B"), 2),
    "E" := Plain(Some("B"), 2),
    "F" := Plain(Some("C"), 2),
    "G" := Plain(Some("F"), 3),
    "H" := Plain(None, 0)])

  lemma DocValid()
    ensures Valid(Doc)
  {
    assert forall c :: c in Doc.classes ==> PlainAt(Doc, c);
    PlainValid(Doc);
  }

  /** The parents in the documented hierarchy. */
  lemma DocParents()
    ensures ParentOf(Doc, "G") == Some("F") && ParentOf(Doc, "F") == Some("C")
    ensures ParentOf(Doc, "C") == Some("A") && ParentOf(Doc, "A") == None
    ensures ParentOf(Doc, "E") == Some("B") && ParentOf(Doc, "B") == Some("A")
    ensures ParentOf(Doc, "H") == None && ParentOf(Doc, "X") == None
  {
  }

  /** The chains of the documented hierarchy. */
  lemma DocChainsFromG()
    ensures Valid(Doc)
    ensures Chain(Doc, "G") == ["G", "F", "C", "A"]
    ensures Chain(Doc, "F") == ["F", "C", "A"]
    ensures Chain(Doc, "C") == ["C", "A"]
  {
    DocValid();
    DocParents();
    assert Chain(Doc, "A") == ["A"];
    assert Chain(Doc, "C") == ["C"] + ["A"];
    assert Chain(Doc, "F") == ["F"] + ["C", "A"];
    assert Chain(Doc, "G") == ["G"] + ["F", "C", "A"];
  }

  lemma DocChainsOthers()
    ensures Valid(Doc)
    ensures Chain(Doc, "E") == ["E", "B", "A"]
    ensures Chain(Doc, "H") == ["H"]
  {
    DocValid();
    DocParents();
    assert Chain(Doc, "A") == ["A"];
    assert Chain(Doc, "B") == ["B"] + ["A"];
    assert Chain(Doc, "E") == ["E"] + ["B", "A"];
  }

  /** `get_first_common_parent(array('G', 'E'))` returns "A". */
  lemma FirstCommonParentOfGAndE()
    ensures Valid(Doc)
    ensures FirstCommonParent(Doc, [Named("G"), Named("E")]) == Some("A")
  {
    DocChainsFromG();
    DocChainsOthers();
    var refs := [Named("G"), Named("E")];
    forall x ensures InAllChains(Doc, refs, x) <==> x in Chain(Doc, "G") && x in Chain(Doc, "E") {
      InAllChainsEvery(Doc, refs, x);
    }
    FirstCommonParentIs(Doc, refs, 3);
  }

  /** `get_first_common_parent(array(new G(), 'F'))` returns "F". */
  lemma FirstCommonParentOfGAndF()
    ensures Valid(Doc)
    ensures FirstCommonParent(Doc, [Instance("G"), Named("F")]) == Some("F")
  {
    DocChainsFromG();
    var refs := [Instance("G"), Named("F")];
    forall x ensures InAllChains(Doc, refs, x) <==> x in Chain(Doc, "G") && x in Chain(Doc, "F") {
      InAllChainsEvery(Doc, refs, x);
    }
    FirstCommonParentIs(Doc, refs, 1);
  }

  /** `get_first_common_parent(array('C', 'H'))` returns false. */
  lemma FirstCommonParentOfCAndH()
    ensures Valid(Doc)
    ensures FirstCommonParent(Doc, [Named("C"), Named("H")]).None?
  {
    DocChainsFromG();
    DocChainsOthers();
    var refs := [Named("C"), Named("H")];
    var c0 := Chain(Doc, "C");
    forall k | 0 <= k < |c0| ensures !InAllChains(Doc, refs, c0[k]) {
      InAllChainsEvery(Doc, refs, c0[k]);
      assert c0[k] !in Chain(Doc, Resolve(refs[1]));
    }
  }

  /** `get_first_common_parent(array(new B(), 'X'))` returns false: X is
      not a loaded class. */
  lemma FirstCommonParentOfUnknown()
    ensures Valid(Doc)
    ensures FirstCommonParent(Doc, [Instance("B"), Named("X")]).None?
  {
    DocValid();
    FirstCommonParentUnknown(Doc, [Instance("B"), Named("X")], 1, 0);
  }

  /** The hierarchy of the `getParentClasses` documentation: E extends D,
      D extends C, C extends B, B extends A. */
  const Line: World := World(map[
    "A" := Plain(None, 0),
    "B" := Plain(Some("A"), 1),
    "C" := Plain(Some("B"), 2),
    "D" := Plain(Some("C"), 3),
    "E" := Plain(Some("D"), 4)])

  lemma LineChain()
    ensures Valid(Line)
    ensures Chain(Line, "E") == ["E", "D", "C", "B", "A"]
  {
    assert forall c :: c in Line.classes ==> PlainAt(Line, c);
    PlainValid(Line);
    assert ParentOf(Line, "E") == Some("D") && ParentOf(Line, "D") == Some("C");
    assert ParentOf(Line, "C") == Some("B") && ParentOf(Line, "B") == Some("A");
    assert ParentOf(Line, "A") == None;
    assert Chain(Line, "A") == ["A"];
    assert Chain(Line, "B") == ["B"] + ["A"];
    assert Chain(Line, "C") == ["C"] + ["B", "A"];
    assert Chain(Line, "D") == ["D"] + ["C", "B", "A"];
    assert Chain(Line, "E") == ["E"] + ["D", "C", "B", "A"];
  }

  /** `getParentClasses(E)` is `[D, C, B, A]` and `getParentClasses(E, B)`
      is `[D, C]`. */
  lemma ParentClassesOfE()
    ensures Valid(Line)
    ensures GetParentClasses(Line, Named("E"), None) == ["D", "C", "B", "A"]
    ensures GetParentClasses(Line, Named("E"), Some("B")) == ["D", "C"]
  {
    LineChain();
    var ch := Chain(Line, "E");
    ParentClassesFull(Line, Named("E"), None);
    assert ch[1..] == ["D", "C", "B", "A"];
    ParentClassesUntil(Line, Named("E"), Some("B"), 3);
    assert ch[1..3] == ["D", "C"];
  }

  /** The unit test's hierarchy: ParentClass extends GrandparentClass and
      ChildClass extends ParentClass. */
  const Family: World := World(map[
    "GrandparentClass" := Plain(None, 0),
    "ParentClass" := Plain(Some("GrandparentClass"), 1),
    "ChildClass" := Plain(Some("ParentClass"), 2)])

  lemma FamilyChains()
    ensures Valid(Family)
    ensures Chain(Family, "ChildClass") == ["ChildClass", "ParentClass", "GrandparentClass"]
    ensures Chain(Family, "ParentClass") == ["ParentClass", "GrandparentClass"]
    ensures Chain(Family, "GrandparentClass") == ["GrandparentClass"]
  {
    assert forall c :: c in Family.classes ==> PlainAt(Family, c);
    PlainValid(Family);
    assert Chain(Family, "GrandparentClass") == ["GrandparentClass"];
    assert Chain(Family, "ParentClass") == ["ParentClass"] + ["GrandparentClass"];
    assert Chain(Family, "ChildClass") == ["ChildClass"] + ["ParentClass", "GrandparentClass"];
  }

  /** Every class is the same as or extends itself and each of its
      ancestors, whether given as an instance or by name; an ancestor does
      not extend its descendant. */
  lemma FamilyIsSameOrExtends(a: ClassRef, b: ClassRef)
    ensures Valid(Family)
    ensures Resolve(a) == "ChildClass"
            && Resolve(b) in ["ChildClass", "ParentClass", "GrandparentClass"]
            ==> GetIsSameOrExtends(Family, a, b)
    ensures Resolve(a) == "ParentClass" && Resolve(b) in ["ParentClass", "GrandparentClass"]
            ==> GetIsSameOrExtends(Family, a, b)
    ensures Resolve(a) == "GrandparentClass" && Resolve(b) == "GrandparentClass"
            ==> GetIsSameOrExtends(Family, a, b)
    ensures Resolve(a) == "GrandparentClass" && Resolve(b) == "ChildClass"
            ==> !GetIsSameOrExtends(Family, a, b)
  {
    FamilyChains();
    IsSameOrExtendsChain(Family, a, b);
  }

  /** An interface I extending J, which extends K; K declares `m`, so all
      three have it. */
  const Ifaces: World := World(map[
    "K" := ClassInfo(true, 0, None, [], {"m"}, [], []),
    "J" := ClassInfo(true, 0, None, ["K"], {"m"}, [], []),
    "I" := ClassInfo(true, 0, None, ["J", "K"], {"m"}, [], [])])

  lemma IfacesValid()
    ensures Valid(Ifaces)
  {
    forall c | c in Ifaces.classes ensures ClassValid(Ifaces, c) {
    }
  }

  /** Skipping K does not hide its method, which J passes on; skipping both
      does, unless I itself is searched. */
  lemma SkipListExample()
    ensures Valid(Ifaces)
    ensures IsMethodDeclaredInInterface(Ifaces, "m", Named("I"), false, true, ["K"]) == Ok(true)
    ensures IsMethodDeclaredInInterface(Ifaces, "m", Named("I"), false, true, ["J", "K"]) == Ok(false)
    ensures IsMethodDeclaredInInterface(Ifaces, "m", Named("I"), true, false, ["J", "K"]) == Ok(true)
  {
    IfacesValid();
    var used := Ifaces.classes["I"].interfaces;
    assert used[0] == "J" && "J" !in ["K"];
    assert InterfaceDeclares(Ifaces, "m", used[0], ["K"]);
    assert forall k :: 0 <= k < |used| ==> used[k] in ["J", "K"];
  }

  /** The class name of the `shortClass` documentation. */
  const StandardName: string := "LE\\Application\\Buro\\Standard"

  lemma StandardNameChars()
    ensures '/' !in StandardName
    ensures StandardName[|StandardName| - 1] != NamespaceSeparator
    ensures |StandardName| == 28 && StandardName[19] == NamespaceSeparator
    ensures forall i :: 19 < i < |StandardName| ==> StandardName[i] != NamespaceSeparator
    ensures StandardName[20..] == "Standard" && StandardName[..19] == "LE\\Application\\Buro"
  {
  }

  /** A string split around a separator with a separator-free right side
      splits at the last separator. */
  lemma SplitAtLast(n: string, left: string, right: string, k: nat)
    requires left + [NamespaceSeparator] + right == n
    requires NamespaceSeparator !in right
    requires k < |n| && n[k] == NamespaceSeparator
    requires forall i :: k < i < |n| ==> n[i] != NamespaceSeparator
    ensures right == n[k + 1..] && left == n[..k]
  {
    assert n[|left|] == NamespaceSeparator;
    assert right == n[|left| + 1..];
    assert |left| <= k;
    assert k < |left| + 1;
  }

  /** `LE\Application\Buro\Standard` lies in namespace `LE\Application\Buro`
      and has the short name `Standard`. */
  lemma StandardNames()
    ensures GetNamespace(StandardName) == "LE\\Application\\Buro"
    ensures Short(Named(StandardName)) == "Standard"
  {
    StandardNameChars();
    assert IsNamespaced(StandardName);
    ShortClassIsLastSegment(Named(StandardName));
    SplitAtLast(StandardName, GetNamespace(StandardName), Short(Named(StandardName)), 19);
  }

  /** A class declaring STATUS_OK = 1, STATUS_BAD = 2 and OTHER = 1. */
  const Statuses: World := World(map[
    "Status" := ClassInfo(false, 0, None, [], {}, [
      Constant("STATUS_OK", IntValue(1)),
      Constant("STATUS_BAD", IntValue(2)),
      Constant("OTHER", IntValue(1))], [])])

  /** Looking up 2 among the `STATUS_` constants finds STATUS_BAD, and the
      value-to-name array agrees. */
  lemma StatusByValue()
    ensures Valid(Statuses)
    ensures GetConstantNameByValue(Statuses, IntValue(2), "Status", "STATUS_") == Some("STATUS_BAD")
    ensures GrabConstantsFromClass(Statuses, Named("Status"), "STATUS_").Ok?
    ensures GrabConstantsFromClass(Statuses, Named("Status"), "STATUS_").value[IntValue(2)] == "STATUS_BAD"
  {
    forall c | c in Statuses.classes ensures ClassValid(Statuses, c) {
    }
    var cs := Statuses.classes["Status"].constants;
    assert !PrefixSelects("STATUS_", cs[2].name) by {
      assert cs[2].name[0] != 'S';
    }
    GrabbedNameIsNameByValue(Statuses, IntValue(2), "Status", "STATUS_", 1);
  }

  /** With every constant selected, the value 1 is held by two constants: the
      lookup by value reports the first, the value-to-name array keeps the
      last. */
  lemma RepeatedValue()
    ensures GetConstantNameByValue(Statuses, IntValue(1), "Status", "") == Some("STATUS_OK")
    ensures GrabConstantsFromClass(Statuses, Named("Status"), "").Ok?
    ensures GrabConstantsFromClass(Statuses, Named("Status"), "").value[IntValue(1)] == "OTHER"
  {
    var cs := Statuses.classes["Status"].constants;
    assert PrefixSelects("", cs[0].name) && cs[0].value == IntValue(1);
    assert PrefixSelects("", cs[2].name);
  }

  /** A class declaring ONE = 1 and STR = '1'. */
  const Mixed: World := World(map[
    "Mixed" := ClassInfo(false, 0, None, [], {}, [
      Constant("ONE", IntValue(1)),
      Constant("STR", StringValue("1"))], [])])

  /** The string `'1'` is the array key 1. */
  lemma OneKey()
    ensures ArrayKey(StringValue("1")) == IntValue(1)
  {
    assert ParseNat("1") == 1 by {
      assert "1"[..0] == "";
    }
    assert IntegerKey("1") == Some(1);
  }

  /** The string `'1'` is stored under the integer key 1, so the
      value-to-name array keeps only STR. */
  lemma CoercedKeys()
    ensures GrabConstantsFromClass(Mixed, Named("Mixed"), "").Ok?
    ensures GrabConstantsFromClass(Mixed, Named("Mixed"), "").value == map[IntValue(1) := "STR"]
  {
    OneKey();
    var cs := Mixed.classes["Mixed"].constants;
    assert PrefixSelects("", cs[0].name) && PrefixSelects("", cs[1].name);
    var g := GrabConstantsFromClass(Mixed, Named("Mixed"), "").value;
    assert g.Keys == {IntValue(1)} by {
      forall k | k in cs ensures ArrayKey(k.value) == IntValue(1) {
      }
    }
    assert g[IntValue(1)] == "STR";
  }

  /** The lookup by value compares strictly, so it tells the two apart. */
  lemma StrictLookup()
    ensures GetConstantNameByValue(Mixed, IntValue(1), "Mixed", "") == Some("ONE")
    ensures GetConstantNameByValue(Mixed, StringValue("1"), "Mixed", "") == Some("STR")
  {
    var cs := Mixed.classes["Mixed"].constants;
    assert PrefixSelects("", cs[0].name) && PrefixSelects("", cs[1].name);
    assert cs[0].value != StringValue("1");
  }

  /** `function f(int $x, ?string $y = null, ...$rest)` of class Foo. */
  const X: Param := Param("x", Some(NamedType("int", true)), false, false, false, NoClassHint,
                          false, false, None, false)
  const Y: Param := Param("y", Some(NamedType("string", true)), true, false, false, NoClassHint,
                          false, true, Some("NULL"), false)
  const Rest: Param := Param("rest", None, false, false, false, NoClassHint, true, true, None, false)
  const F: Method := Method("Foo", "f", [X, Y, Rest], false, false, Public, None)

  /** The texts of the three parameters, declared and passed. */
  lemma SamplePieceX()
    ensures Piece(F, X, 0, false) == Ok("int $x") && Piece(F, X, 0, true) == Ok("$x")
  {
    assert X.typ == Some(NamedType("int", true)) && !X.isVariadic;
    assert ParamTypeHintAsWritten(X.typ.value) == "int ";
    assert TypeDeclaration(F, X) == Ok("int ");
    assert ParamName(X, 0) == "$x";
    ConcatFive("", "int ", "", "$x", "");
    assert "" + "int " + "" + "$x" + "" == "int $x";
    CallPiece(F, X, 0);
    assert "" + "$x" == "$x";
  }

  lemma SamplePieceY()
    ensures Piece(F, Y, 1, false) == Ok("?string $y = NULL") && Piece(F, Y, 1, true) == Ok("$y")
  {
    assert Y.typ == Some(NamedType("string", true)) && Y.defaultValue == Some("NULL");
    assert ParamTypeHintAsWritten(Y.typ.value) == "string ";
    assert TypeDeclaration(F, Y) == Ok("string ");
    assert ParamName(Y, 1) == "$y";
    assert DefaultPart(Y) == " = NULL";
    ConcatFive("?", "string ", "", "$y", " = NULL");
    assert "?" + "string " + "" + "$y" + " = NULL" == "?string $y = NULL";
    CallPiece(F, Y, 1);
    assert "" + "$y" == "$y";
  }

  lemma SamplePieceRest()
    ensures Piece(F, Rest, 2, false) == Ok("...$rest")
  {
    assert TypeDeclaration(F, Rest) == Ok("");
    assert ParamName(Rest, 2) == "...$rest";
    ConcatFive("", "", "", "...$rest", "");
    assert "" + "" + "" + "...$rest" + "" == "...$rest";
  }

  /** The loop over the declared parameters collects the three texts. */
  lemma SampleDeclarationLoop()
    ensures ListSoFar(F, false, 3) == Ok(["int $x", "?string $y = NULL", "...$rest"])
  {
    SamplePieceX();
    SamplePieceY();
    SamplePieceRest();
    assert F.params[0] == X && F.params[1] == Y && F.params[2] == Rest;
    var a, b, c := "int $x", "?string $y = NULL", "...$rest";
    assert ListSoFar(F, false, 0) == Ok([]);
    assert ListSoFar(F, false, 1) == Ok([] + [a]);
    assert [] + [a] == [a];
    assert ListSoFar(F, false, 2) == Ok([a] + [b]);
    assert [a] + [b] == [a, b];
    assert ListSoFar(F, false, 3) == Ok([a, b] + [c]);
    assert [a, b] + [c] == [a, b, c];
  }

  /** The declaration list spells out types, nullability, the default and
      the spread. */
  lemma SampleDeclarationList()
    ensures ParameterList(F, false) == Ok("int $x, ?string $y = NULL, ...$rest")
  {
    var a, b, c := "int $x", "?string $y = NULL", "...$rest";
    var decl := [a, b, c];
    SampleDeclarationLoop();
    assert |F.params| == 3;
    ParameterListFromLoop(F, false);
    assert decl[..2] == [a, b] && [a, b][..1] == [a];
    assert Join([a, b], ", ") == Join([a], ", ") + ", " + b;
    assert Join(decl, ", ") == Join([a, b], ", ") + ", " + c;
    DeclarationText();
  }

  lemma DeclarationText()
    ensures "int $x" + ", " + "?string $y = NULL" + ", " + "...$rest" == "int $x, ?string $y = NULL, ...$rest"
  {
  }

  /** The loop over the passed parameters collects the two plain variables. */
  lemma SampleCallLoop()
    ensures ListSoFar(F, true, 3) == Ok(["$x", "$y"])
  {
    SamplePieceX();
    SamplePieceY();
    assert F.params[0] == X && F.params[1] == Y && F.params[2] == Rest;
    var a, b := "$x", "$y";
    assert ListSoFar(F, true, 0) == Ok([]);
    assert ListSoFar(F, true, 1) == Ok([] + [a]);
    assert [] + [a] == [a];
    assert ListSoFar(F, true, 2) == Ok([a] + [b]);
    assert [a] + [b] == [a, b];
  }

  /** The call list passes the two plain variables and drops the spread one. */
  lemma SampleCallList()
    ensures ParameterList(F, true) == Ok("$x, $y")
  {
    var a, b := "$x", "$y";
    SampleCallLoop();
    assert |F.params| == 3;
    ParameterListFromLoop(F, true);
    assert [a, b][..1] == [a];
    assert Join([a, b], ", ") == Join([a], ", ") + ", " + b;
    assert a + ", " + b == "$x, $y";
  }

  /** `function g(array $a)` of class Foo. */
  const ArrayArg: Param := Param("a", Some(NamedType("array", true)), false, false, false, NoClassHint,
                                 false, false, None, false)
  const TakesArray: Method := Method("Foo", "g", [ArrayArg], false, false, Public, None)

  /** The array-typed parameter is written `\array $a`, while the intended
      type declaration is `array `. */
  lemma ArrayParameterAsWritten()
    ensures ParameterList(TakesArray, false) == Ok("\\array $a")
    ensures TypeDeclarationIntended(TakesArray, ArrayArg) == Ok("array ")
  {
    var a := "\\array $a";
    assert ArrayArg.typ == Some(NamedType("array", true));
    assert "array" !in ScalarTypeNames;
    assert ParamTypeHintAsWritten(ArrayArg.typ.value) == "\\array ";
    assert TypeDeclaration(TakesArray, ArrayArg) == Ok("\\array ");
    assert ParamName(ArrayArg, 0) == "$a";
    ConcatFive("", "\\array ", "", "$a", "");
    assert "" + "\\array " + "" + "$a" + "" == a;
    assert Piece(TakesArray, ArrayArg, 0, false) == Ok(a);
    assert TakesArray.params[0] == ArrayArg;
    assert ListSoFar(TakesArray, false, 0) == Ok([]);
    assert ListSoFar(TakesArray, false, 1) == Ok([] + [a]);
    assert [] + [a] == [a];
    ParameterListFromLoop(TakesArray, false);
  }
}

=== FILE: hierarchy.dfy ===
/** The class-hierarchy queries of the helper class: first common parent,
    parent-class list, same-or-extends, interface implementation, and the
    interface method lookup. */
module Hierarchy {
  import opened Wrappers
  import opened Seqs
  import opened PhpStrings
  import opened Runtime

  /** The ancestor-or-self chain of `c`, nearest first: `c`, its parent, its
      grandparent, ... up to a root. A name that is not loaded has no parent,
      so its chain is just itself. */
  function Chain(w: World, c: ClassName): (chain: seq<ClassName>)
    requires Valid(w)
    ensures |chain| > 0 && chain[0] == c
    decreases Rank(w, c)
  {
    match ParentOf(w, c)
    case None => [c]
    case Some(p) =>
      ValidAt(w, c);
      [c] + Chain(w, p)
  }

  /** Each class of the chain is followed by its parent, the last one has
      none, and every strict ancestor is a loaded class that sits higher. */
  lemma {:induction false} ChainShape(w: World, c: ClassName)
    requires Valid(w)
    ensures var ch := Chain(w, c);
            forall i, j {:trigger ch[i], ch[j]} :: 0 <= i && j == i + 1 && j < |ch| ==>
              ParentOf(w, ch[i]) == Some(ch[j])
    ensures ParentOf(w, Chain(w, c)[|Chain(w, c)| - 1]).None?
    ensures var ch := Chain(w, c);
            forall i :: 0 < i < |ch| ==> ch[i] in w.classes && Rank(w, ch[i]) < Rank(w, c)
    decreases Rank(w, c)
  {
    match ParentOf(w, c)
    case None =>
    case Some(p) =>
      ValidAt(w, c);
      ChainShape(w, p);
      var ch := Chain(w, c);
      var up := Chain(w, p);
      assert ch == [c] + up;
      forall i, j | 0 <= i && j == i + 1 && j < |ch| ensures ParentOf(w, ch[i]) == Some(ch[j]) {
        if i > 0 {
          assert ch[i] == up[i - 1] && ch[j] == up[j - 1];
        }
      }
      forall i | 0 < i < |ch| ensures ch[i] in w.classes && Rank(w, ch[i]) < Rank(w, c) {
        assert ch[i] == up[i - 1];
      }
  }

  /** A chain never repeats a class: the hierarchy is acyclic. */
  lemma {:induction false} ChainDistinct(w: World, c: ClassName)
    requires Valid(w)
    ensures forall i, j :: 0 <= i < j < |Chain(w, c)| ==> Chain(w, c)[i] != Chain(w, c)[j]
    decreases Rank(w, c)
  {
    match ParentOf(w, c)
    case None =>
    case Some(p) =>
      ValidAt(w, c);
      ChainDistinct(w, p);
      ChainShape(w, p);
      var ch := Chain(w, c);
      assert ch[1..] == Chain(w, p);
  }

  /** Every class of the chain of a chain member is in the original chain. */
  lemma {:induction false} ChainTransitive(w: World, a: ClassName, b: ClassName)
    requires Valid(w)
    requires b in Chain(w, a)
    ensures forall x :: x in Chain(w, b) ==> x in Chain(w, a)
    decreases Rank(w, a)
  {
    if b != a {
      match ParentOf(w, a)
      case None =>
      case Some(p) =>
        ValidAt(w, a);
        assert Chain(w, a) == [a] + Chain(w, p);
        ChainTransitive(w, p, b);
    }
  }

  /** A loaded class has every interface of each of its ancestors. */
  lemma {:induction false} ChainInheritsInterfaces(w: World, a: ClassName, b: ClassName)
    requires Valid(w)
    requires a in w.classes && b in Chain(w, a)
    ensures b in w.classes
    ensures forall i :: i in w.classes[b].interfaces ==> i in w.classes[a].interfaces
    decreases Rank(w, a)
  {
    if b != a {
      match ParentOf(w, a)
      case None =>
      case Some(p) =>
        ValidAt(w, a);
        assert Chain(w, a) == [a] + Chain(w, p);
        ChainInheritsInterfaces(w, p, b);
    }
  }

  /** `x` lies in the ancestor-or-self chain of every input. Stated input by
      input from the back, the way the fold over the inputs proceeds. */
  predicate InAllChains(w: World, refs: seq<ClassRef>, x: ClassName)
    requires Valid(w)
    decreases |refs|
  {
    |refs| == 0
    || (InAllChains(w, refs[..|refs| - 1], x) && x in Chain(w, Resolve(refs[|refs| - 1])))
  }

  /** `InAllChains` as a filter predicate. */
  function InAllOf(w: World, refs: seq<ClassRef>): ClassName -> bool
    requires Valid(w)
  {
    x => InAllChains(w, refs, x)
  }

  /** Being in all chains is being in the chain of each input. */
  lemma {:induction false} InAllChainsEvery(w: World, refs: seq<ClassRef>, x: ClassName)
    requires Valid(w)
    ensures InAllChains(w, refs, x) <==> forall i :: 0 <= i < |refs| ==> x in Chain(w, Resolve(refs[i]))
    decreases |refs|
  {
    if |refs| > 0 {
      var front := refs[..|refs| - 1];
      InAllChainsEvery(w, front, x);
      assert forall i :: 0 <= i < |front| ==> front[i] == refs[i];
    }
  }

  /** `array_intersect($a, $b)`: the elements of `a` that occur in `b`, in
      the order (and with the keys) of `a`. */
  function ArrayIntersect(a: seq<ClassName>, b: seq<ClassName>): seq<ClassName> {
    Filter(a, x => x in b)
  }

  /** The accumulated `$common_ancestors` after every input has been folded
      in: the first input's chain, intersected with each later chain in turn.
      It is the first chain restricted to the classes common to all chains. */
  function CommonAncestors(w: World, refs: seq<ClassRef>): (common: seq<ClassName>)
    requires Valid(w) && |refs| > 0
    ensures common == Filter(Chain(w, Resolve(refs[0])), InAllOf(w, refs))
    decreases |refs|
  {
    if |refs| == 1 then
      var c0 := Chain(w, Resolve(refs[0]));
      forall x | x in c0 ensures InAllOf(w, refs)(x) {
        InAllChainsEvery(w, refs, x);
      }
      FilterAll(c0, InAllOf(w, refs));
      c0
    else
      var acc := CommonAncestors(w, refs[..|refs| - 1]);
      CommonAncestorsStep(w, refs);
      ArrayIntersect(acc, Chain(w, Resolve(refs[|refs| - 1])))
  }

  /** Folding one more chain into the intersection narrows the filter by
      membership in that chain. */
  lemma CommonAncestorsStep(w: World, refs: seq<ClassRef>)
    requires Valid(w) && |refs| > 1
    ensures var c0 := Chain(w, Resolve(refs[0]));
            var front := refs[..|refs| - 1];
            var last := Chain(w, Resolve(refs[|refs| - 1]));
            ArrayIntersect(Filter(c0, InAllOf(w, front)), last)
            == Filter(c0, InAllOf(w, refs))
  {
    var c0 := Chain(w, Resolve(refs[0]));
    var n := |refs|;
    var front := refs[..n - 1];
    var last := Chain(w, Resolve(refs[n - 1]));
    FilterFilter(c0, InAllOf(w, front), x => x in last,
                 x => InAllChains(w, front, x) && x in last);
    forall x ensures (InAllChains(w, front, x) && x in last) == InAllChains(w, refs, x) {
    }
    FilterCongruent(c0, x => InAllChains(w, front, x) && x in last, InAllOf(w, refs));
  }

  /** `firstCommonParent($objects)`: the first element of the common
      ancestors, or `None` (PHP `false`) when there is none. The input list
      must be non-empty (`reset` on the initial `null` is not modelled). */
  function FirstCommonParent(w: World, refs: seq<ClassRef>): (r: Option<ClassName>)
    requires Valid(w) && |refs| > 0
    ensures var c0 := Chain(w, Resolve(refs[0]));
            r.None? <==> forall k :: 0 <= k < |c0| ==> !InAllChains(w, refs, c0[k])
    ensures var c0 := Chain(w, Resolve(refs[0]));
            r.Some? ==> && r.value in c0 && InAllChains(w, refs, r.value)
                        && forall k :: 0 <= k < |c0| && InAllChains(w, refs, c0[k]) ==> r.value in c0[..k + 1]
  {
    var common := CommonAncestors(w, refs);
    if |common| == 0 then
      CommonAncestorsEmpty(w, refs);
      None
    else
      CommonAncestorsFirst(w, refs);
      Some(common[0])
  }

  /** The first class of the first chain that lies in all chains is the
      result. */
  lemma FirstCommonParentIs(w: World, refs: seq<ClassRef>, k: nat)
    requires Valid(w) && |refs| > 0
    requires var c0 := Chain(w, Resolve(refs[0]));
             && k < |c0| && InAllChains(w, refs, c0[k])
             && forall j :: 0 <= j < k ==> !InAllChains(w, refs, c0[j])
    ensures FirstCommonParent(w, refs) == Some(Chain(w, Resolve(refs[0]))[k])
  {
    var c0 := Chain(w, Resolve(refs[0]));
    var r := FirstCommonParent(w, refs);
    assert r.Some?;
    var j := PrefixIndex(c0, k, r.value);
    assert InAllChains(w, refs, c0[j]);
  }

  /** No common ancestor exactly when no class of the first chain is in all
      chains. */
  lemma CommonAncestorsEmpty(w: World, refs: seq<ClassRef>)
    requires Valid(w) && |refs| > 0
    ensures var c0 := Chain(w, Resolve(refs[0]));
            |CommonAncestors(w, refs)| == 0 <==> forall k :: 0 <= k < |c0| ==> !InAllChains(w, refs, c0[k])
  {
    var c0 := Chain(w, Resolve(refs[0]));
    var p := InAllOf(w, refs);
    var common := CommonAncestors(w, refs);
    assert common == Filter(c0, p);
    if |common| == 0 {
      FilterEmpty(c0, p);
      forall k | 0 <= k < |c0| ensures !InAllChains(w, refs, c0[k]) {
        assert !p(c0[k]);
      }
    } else {
      CommonAncestorsFirst(w, refs);
    }
  }

  /** The first common ancestor is a class of the first chain that is in
      all chains, and it comes no later than any other such class. */
  lemma CommonAncestorsFirst(w: World, refs: seq<ClassRef>)
    requires Valid(w) && |refs| > 0 && |CommonAncestors(w, refs)| > 0
    ensures var c0 := Chain(w, Resolve(refs[0]));
            var first := CommonAncestors(w, refs)[0];
            && first in c0 && InAllChains(w, refs, first)
            && forall k :: 0 <= k < |c0| && InAllChains(w, refs, c0[k]) ==> first in c0[..k + 1]
  {
    var c0 := Chain(w, Resolve(refs[0]));
    var p := InAllOf(w, refs);
    var common := CommonAncestors(w, refs);
    assert common == Filter(c0, p);
    FilterFirst(c0, p);
    var j :| 0 <= j < |c0| && c0[j] == common[0] && p(c0[j]) && forall k :: 0 <= k < j ==> !p(c0[k]);
    assert InAllChains(w, refs, c0[j]);
    forall k | 0 <= k < |c0| && InAllChains(w, refs, c0[k]) ensures common[0] in c0[..k + 1] {
      assert p(c0[k]);
      assert c0[..k + 1][j] == common[0];
    }
  }

  /** A name that is not loaded shares no ancestor with a loaded class, so the
      result is `None` as soon as both kinds occur among the inputs. */
  lemma FirstCommonParentUnknown(w: World, refs: seq<ClassRef>, i: nat, j: nat)
    requires Valid(w) && |refs| > 0
    requires i < |refs| && Resolve(refs[i]) !in w.classes
    requires j < |refs| && Resolve(refs[j]) in w.classes
    ensures FirstCommonParent(w, refs).None?
  {
    var c0 := Chain(w, Resolve(refs[0]));
    ChainShape(w, Resolve(refs[j]));
    forall k | 0 <= k < |c0| ensures !InAllChains(w, refs, c0[k]) {
      InAllChainsEvery(w, refs, c0[k]);
    }
  }

  /** PHP truthiness of the optional `$until` argument: set and not falsy. */
  predicate UntilSet(until: Option<ClassName>) {
    until.Some? && Truthy(until.value)
  }

  /** The walk of `getParentClasses` stops before a parent equal to `$until`. */
  predicate StopsAt(until: Option<ClassName>, p: ClassName) {
    UntilSet(until) && p == until.value
  }

  /** The strict ancestors of `c`, nearest first, cut off before `until`. */
  function ParentClassesFrom(w: World, c: ClassName, until: Option<ClassName>): (parents: seq<ClassName>)
    requires Valid(w)
    ensures forall i :: 0 <= i < |parents| ==> !StopsAt(until, parents[i])
    ensures |parents| < |Chain(w, c)| && parents == Chain(w, c)[1..|parents| + 1]
    ensures |parents| + 1 < |Chain(w, c)| ==> StopsAt(until, Chain(w, c)[|parents| + 1])
    decreases Rank(w, c)
  {
    match ParentOf(w, c)
    case None => []
    case Some(p) =>
      ValidAt(w, c);
      if StopsAt(until, p) then []
      else
        var rest := ParentClassesFrom(w, p, until);
        assert Chain(w, c) == [c] + Chain(w, p);
        [p] + rest
  }

  /** `getParentClasses($class, $until)`. */
  function GetParentClasses(w: World, c: ClassRef, until: Option<ClassName>): (parents: seq<ClassName>)
    requires Valid(w)
    ensures |parents| < |Chain(w, Resolve(c))|
    ensures parents == Chain(w, Resolve(c))[1..|parents| + 1]
    ensures forall i :: 0 <= i < |parents| ==> !StopsAt(until, parents[i])
    ensures |parents| + 1 < |Chain(w, Resolve(c))| ==> StopsAt(until, Chain(w, Resolve(c))[|parents| + 1])
  {
    ParentClassesFrom(w, Resolve(c), until)
  }

  /** Without an effective `until`, or with one that is not an ancestor, the
      result is the full strict-ancestor chain. */
  lemma ParentClassesFull(w: World, c: ClassRef, until: Option<ClassName>)
    requires Valid(w)
    requires !UntilSet(until) || until.value !in Chain(w, Resolve(c))[1..]
    ensures GetParentClasses(w, c, until) == Chain(w, Resolve(c))[1..]
  {
  }

  /** With `until` the k-th strict ancestor, the result is the k-1 ancestors
      below it; in particular it is empty when `until` is the parent. */
  lemma ParentClassesUntil(w: World, c: ClassRef, until: Option<ClassName>, k: nat)
    requires Valid(w)
    requires UntilSet(until)
    requires 1 <= k < |Chain(w, Resolve(c))| && Chain(w, Resolve(c))[k] == until.value
    ensures GetParentClasses(w, c, until) == Chain(w, Resolve(c))[1..k]
  {
    ChainDistinct(w, Resolve(c));
  }

  /** The result never contains the class itself nor `until`. */
  lemma ParentClassesExclude(w: World, c: ClassRef, until: Option<ClassName>)
    requires Valid(w)
    ensures Resolve(c) !in GetParentClasses(w, c, until)
    ensures UntilSet(until) ==> until.value !in GetParentClasses(w, c, until)
  {
    ChainDistinct(w, Resolve(c));
  }

  /** `is_subclass_of($a, $b)`: `b` is a strict ancestor class of `a` or an
      interface `a` implements; `false` when `a` is not loaded. */
  predicate IsSubclassOf(w: World, a: ClassName, b: ClassName)
    requires Valid(w)
  {
    a in w.classes && (b in Chain(w, a)[1..] || b in w.classes[a].interfaces)
  }

  /** `isSameOrExtends($ancestor, $parent)`: every class is the same as
      itself, and a class that is not loaded extends nothing else. */
  function IsSameOrExtends(w: World, a: ClassRef, b: ClassRef): (r: bool)
    requires Valid(w)
    ensures Resolve(a) == Resolve(b) ==> r
    ensures Resolve(a) !in w.classes ==> (r <==> Resolve(a) == Resolve(b))
  {
    var ac := Resolve(a);
    var bc := Resolve(b);
    ac == bc || IsSubclassOf(w, ac, bc)
  }

  /** `getIsSameOrExtends`, the static alias: the second class is on the
      first's ancestor-or-self chain or among its interfaces. */
  function GetIsSameOrExtends(w: World, a: ClassRef, b: ClassRef): (r: bool)
    requires Valid(w)
    ensures r <==>
              Resolve(b) in Chain(w, Resolve(a))
              || (Resolve(a) in w.classes && Resolve(b) in w.classes[Resolve(a)].interfaces)
  {
    IsSameOrExtendsChain(w, a, b);
    IsSameOrExtends(w, a, b)
  }

  /** Same-or-extends is membership in the ancestor-or-self chain or in the
      interface list; an instance answers exactly as its class name does. */
  lemma IsSameOrExtendsChain(w: World, a: ClassRef, b: ClassRef)
    requires Valid(w)
    ensures IsSameOrExtends(w, a, b) <==>
              Resolve(b) in Chain(w, Resolve(a))
              || (Resolve(a) in w.classes && Resolve(b) in w.classes[Resolve(a)].interfaces)
    ensures IsSameOrExtends(w, a, b) == IsSameOrExtends(w, Named(Resolve(a)), Named(Resolve(b)))
  {
    var ch := Chain(w, Resolve(a));
    if Resolve(b) in ch && Resolve(b) != Resolve(a) {
      var k :| 0 <= k < |ch| && ch[k] == Resolve(b);
      assert ch[1..][k - 1] == ch[k];
    }
    if Resolve(b) in ch[1..] {
      assert Resolve(b) in ch;
    }
  }

  /** Same-or-extends is reflexive, and every strict ancestor (every element
      of the full `getParentClasses` list) is extended. */
  lemma IsSameOrExtendsAncestors(w: World, a: ClassRef, b: ClassName)
    requires Valid(w)
    ensures GetIsSameOrExtends(w, a, a)
    ensures b in GetParentClasses(w, a, None) ==> GetIsSameOrExtends(w, a, Named(b))
  {
    ParentClassesFull(w, a, None);
  }

  /** An interface is a root: its chain is itself alone. */
  lemma InterfaceChain(w: World, i: ClassName)
    requires Valid(w)
    ensures i in w.classes && w.classes[i].isInterface ==> Chain(w, i) == [i]
  {
    if i in w.classes {
      ValidAt(w, i);
    }
  }

  /** Same-or-extends is transitive. */
  lemma IsSameOrExtendsTransitive(w: World, a: ClassRef, b: ClassRef, c: ClassRef)
    requires Valid(w)
    requires IsSameOrExtends(w, a, b) && IsSameOrExtends(w, b, c)
    ensures IsSameOrExtends(w, a, c)
  {
    var ac, bc, cc := Resolve(a), Resolve(b), Resolve(c);
    IsSameOrExtendsChain(w, a, b);
    IsSameOrExtendsChain(w, b, c);
    IsSameOrExtendsChain(w, a, c);
    if ac != bc && bc != cc {
      if bc in Chain(w, ac) {
        ChainInheritsInterfaces(w, ac, bc);
        if cc in Chain(w, bc) {
          ChainTransitive(w, ac, bc);
        }
      } else {
        ValidAt(w, ac);
        InterfaceChain(w, bc);
        ValidAt(w, bc);
      }
    }
  }

  /** Same-or-extends is antisymmetric: two classes that extend each other
      are the same class. */
  lemma IsSameOrExtendsAntisymmetric(w: World, a: ClassRef, b: ClassRef)
    requires Valid(w)
    requires IsSameOrExtends(w, a, b) && IsSameOrExtends(w, b, a)
    ensures Resolve(a) == Resolve(b)
  {
    var ac, bc := Resolve(a), Resolve(b);
    if ac != bc {
      IsSameOrExtendsChain(w, a, b);
      IsSameOrExtendsChain(w, b, a);
      ValidAt(w, ac);
      ValidAt(w, bc);
      InterfaceChain(w, ac);
      InterfaceChain(w, bc);
      ChainRank(w, ac, bc);
      ChainRank(w, bc, ac);
    }
  }

  /** A strict ancestor sits strictly higher. */
  lemma ChainRank(w: World, a: ClassName, b: ClassName)
    requires Valid(w)
    ensures b in Chain(w, a) && b != a ==> Rank(w, b) < Rank(w, a)
  {
    var ch := Chain(w, a);
    ChainShape(w, a);
    if b in ch && b != a {
      var k :| 0 <= k < |ch| && ch[k] == b;
    }
  }

  /** `isImplements($class, $interface)`: membership in `class_implements`.
      A name that is not loaded makes PHP fail, modelled as an error. */
  function IsImplements(w: World, c: ClassRef, iface: ClassName): (r: Result<bool, Error>)
    ensures r.Err? <==> Resolve(c) !in w.classes
  {
    var name := Resolve(c);
    if name !in w.classes then Err(ReflectionFailure(name))
    else Ok(iface in w.classes[name].interfaces)
  }

  /** `implement($class, $interface)`: the same membership test on a class name. */
  function Implement(w: World, c: ClassName, iface: ClassName): (r: Result<bool, Error>)
    ensures r.Err? <==> c !in w.classes
    ensures r.Ok? ==> (r.value <==> iface in w.classes[c].interfaces)
  {
    IsImplements(w, Named(c), iface)
  }

  /** A class implements exactly the supertypes that are not in its class chain. */
  lemma IsImplementsExtends(w: World, c: ClassRef, iface: ClassName)
    requires Valid(w) && Resolve(c) in w.classes
    ensures IsImplements(w, c, iface) == Ok(true) <==>
              IsSameOrExtends(w, c, Named(iface)) && iface !in Chain(w, Resolve(c))
  {
    var name := Resolve(c);
    var ch := Chain(w, name);
    ChainShape(w, name);
    IsSameOrExtendsChain(w, c, Named(iface));
    ValidAt(w, name);
    if iface in w.classes[name].interfaces && iface in ch {
      var k :| 0 <= k < |ch| && ch[k] == iface;
      assert k > 0;
      assert ParentOf(w, ch[k - 1]) == Some(iface);
      ValidAt(w, ch[k - 1]);
    }
  }

  /** The outcome of `isMethodDeclaredInInterface`, flattened: the class
      itself is asked when `searchIn` is set, and with `recursive` set each
      non-skipped interface of `getInterfaces()` is asked directly, one
      level deep. */
  ghost predicate DeclaredOneLevel(w: World, m: string, name: ClassName,
                                   searchIn: bool, recursive: bool, skip: seq<ClassName>)
    requires name in w.classes
  {
    || (searchIn && m in w.classes[name].methods)
    || (recursive &&
        exists k :: 0 <= k < |w.classes[name].interfaces| && InterfaceDeclares(w, m, w.classes[name].interfaces[k], skip))
  }

  /** A non-skipped, loaded interface `u` has method `m`. */
  ghost predicate InterfaceDeclares(w: World, m: string, u: ClassName, skip: seq<ClassName>) {
    u !in skip && u in w.classes && m in w.classes[u].methods
  }

  /** `isMethodDeclaredInInterface($methodName, $interfaceClass,
      $searchInInterfaceClass, $recursiveSearch, $skipCheckOfInterfaces)`.
      Here an `Instance` also stands for a `ReflectionClass` of the class,
      which the code uses as it is. Constructing a `ReflectionClass` of a
      name that is not loaded throws. */
  function IsMethodDeclaredInInterface(w: World, m: string, interfaceClass: ClassRef,
                                       searchIn: bool, recursive: bool,
                                       skip: seq<ClassName>): (r: Result<bool, Error>)
    requires Valid(w)
    ensures r.Err? <==> Resolve(interfaceClass) !in w.classes
    ensures Resolve(interfaceClass) in w.classes ==>
              r == Ok(DeclaredOneLevel(w, m, Resolve(interfaceClass), searchIn, recursive, skip))
    decreases if recursive then 1 else 0, 1, 0
  {
    var name := Resolve(interfaceClass);
    if name !in w.classes then Err(ReflectionFailure(name))
    else if searchIn && m in w.classes[name].methods then Ok(true)
    else if recursive then
      ValidAt(w, name);
      SearchUsedInterfaces(w, m, w.classes[name].interfaces, skip, recursive)
    else Ok(false)
  }

  /** The `foreach` over `getInterfaces()`: skipped names are passed over, and
      every other interface is asked through a nested call that receives
      `recursive` as its `searchIn`, the default `false` as its own
      `recursive`, and an empty skip list. */
  function SearchUsedInterfaces(w: World, m: string, used: seq<ClassName>,
                                skip: seq<ClassName>, recursive: bool): (r: Result<bool, Error>)
    requires Valid(w)
    requires forall k :: 0 <= k < |used| ==> used[k] in w.classes
    ensures r == Ok(exists k :: 0 <= k < |used| && used[k] !in skip
                                && recursive && m in w.classes[used[k]].methods)
    decreases 1, 0, |used|
  {
    if |used| == 0 then Ok(false)
    else if used[0] in skip then
      SearchUsedInterfaces(w, m, used[1..], skip, recursive)
    else
      match IsMethodDeclaredInInterface(w, m, Instance(used[0]), recursive, false, [])
      case Err(e) => Err(e)
      case Ok(found) =>
        if found then Ok(true)
        else SearchUsedInterfaces(w, m, used[1..], skip, recursive)
  }

  /** Searching the interface itself makes the recursive search redundant:
      every method of an extended interface is also a method of it. */
  lemma SearchInSelfSuffices(w: World, m: string, iface: ClassRef,
                             recursive: bool, skip: seq<ClassName>)
    requires Valid(w) && Resolve(iface) in w.classes
    ensures IsMethodDeclaredInInterface(w, m, iface, true, recursive, skip)
            == Ok(m in w.classes[Resolve(iface)].methods)
  {
    ValidAt(w, Resolve(iface));
  }
}

=== FILE: names.dfy ===
/** The class-name string helpers: `isNamespaced`, `getNamespace`,
    `shortClass` and its alias `short`. Namespace segments are separated by a
    backslash. */
module Names {
  import opened PhpStrings
  import opened Runtime

  const NamespaceSeparator: char := '\\'

  /** `isNamespaced($className)`: one more segment than separators, more than one. */
  function IsNamespaced(className: string): (r: bool)
    ensures r <==> NamespaceSeparator in className
  {
    CountChar(className, NamespaceSeparator) + 1 > 1
  }

  /** `getNamespace($className)`: every segment but the last, re-joined. */
  function GetNamespace(className: string): (r: string)
    ensures NamespaceSeparator !in className ==> r == ""
    ensures NamespaceSeparator in className ==>
              r + [NamespaceSeparator] + LastPiece(className, NamespaceSeparator) == className
  {
    var parts := Explode(className, NamespaceSeparator);
    ExplodeCount(className, NamespaceSeparator);
    JoinExplode(className, NamespaceSeparator);
    if |parts| == 1 then ""
    else Join(parts[..|parts| - 1], [NamespaceSeparator])
  }

  /** `shortClass($namespacedClassName)`: separators become `/`, then
      `basename` is applied twice. */
  function ShortClass(c: ClassRef): (r: string)
    ensures NamespaceSeparator !in r && '/' !in r
  {
    var replaced := ReplaceChar(Resolve(c), NamespaceSeparator, '/');
    var once := Basename(replaced);
    BasenameWithin(replaced);
    BasenameWithin(once);
    Basename(once)
  }

  /** The result of `basename` is a piece of its argument. */
  lemma BasenameWithin(path: string)
    ensures forall ch :: ch in Basename(path) ==> ch in path
  {
    var t := StripTrailing(path, '/');
    var r := Basename(path);
    forall ch | ch in r ensures ch in path {
      var k :| 0 <= k < |r| && r[k] == ch;
      assert r[k] == t[|t| - |r| + k];
      assert t[|t| - |r| + k] == path[|t| - |r| + k];
    }
  }

  /** `short($namespacedClassName)`, the alias of `shortClass`. */
  function Short(c: ClassRef): (r: string)
    ensures NamespaceSeparator !in r && '/' !in r
  {
    ShortClass(c)
  }

  /** For a class name (no `/`, no trailing separator) the short name is the
      last segment, and the namespace, a separator and the short name
      rebuild the name. */
  lemma ShortClassIsLastSegment(c: ClassRef)
    requires '/' !in Resolve(c)
    requires |Resolve(c)| == 0 || Resolve(c)[|Resolve(c)| - 1] != NamespaceSeparator
    ensures Short(c) == LastPiece(Resolve(c), NamespaceSeparator)
    ensures IsNamespaced(Resolve(c)) ==>
              GetNamespace(Resolve(c)) + [NamespaceSeparator] + Short(c) == Resolve(c)
    ensures !IsNamespaced(Resolve(c)) ==> Short(c) == Resolve(c)
  {
    var n := Resolve(c);
    assert Short(c) == ShortClass(Named(n));
    ShortIsLastPiece(n);
    NamespaceThenShort(n);
    ShortOfPlainName(n);
  }

  /** The two `basename` calls of `shortClass` on a class name keep exactly
      its last segment. */
  lemma ShortIsLastPiece(n: string)
    requires '/' !in n
    requires |n| == 0 || n[|n| - 1] != NamespaceSeparator
    ensures ShortClass(Named(n)) == LastPiece(n, NamespaceSeparator)
  {
    var replaced := ReplaceChar(n, NamespaceSeparator, '/');
    ExplodeReplace(n, NamespaceSeparator, '/');
    assert StripTrailing(replaced, '/') == replaced;
    var once := Basename(replaced);
    assert once == LastPiece(n, NamespaceSeparator);
    assert StripTrailing(once, '/') == once;
    ExplodeFree(once, '/');
  }

  /** A namespaced class name is its namespace, a separator and its short name. */
  lemma NamespaceThenShort(n: string)
    requires '/' !in n
    requires |n| == 0 || n[|n| - 1] != NamespaceSeparator
    ensures IsNamespaced(n) ==> GetNamespace(n) + [NamespaceSeparator] + ShortClass(Named(n)) == n
  {
    ShortIsLastPiece(n);
  }

  /** A class name outside any namespace is its own short name. */
  lemma ShortOfPlainName(n: string)
    requires '/' !in n
    requires |n| == 0 || n[|n| - 1] != NamespaceSeparator
    ensures !IsNamespaced(n) ==> ShortClass(Named(n)) == n
  {
    ShortIsLastPiece(n);
    if !IsNamespaced(n) {
      ExplodeFree(n, NamespaceSeparator);
    }
  }
}

=== FILE: php_strings.dfy ===
/** The PHP string built-ins the helper class relies on, over `seq<char>`:
    truthiness, `substr_count`, `explode`/`implode`, `str_replace` of one
    character, `basename`, and the decimal rendering of an integer. */
module PhpStrings {

  /** PHP truthiness of a string: only `""` and `"0"` are falsy. */
  predicate Truthy(s: string) {
    s != "" && s != "0"
  }

  predicate StartsWith(s: string, prefix: string) {
    prefix <= s
  }

  predicate EndsWith(s: string, suffix: string) {
    |suffix| <= |s| && s[|s| - |suffix|..] == suffix
  }

  /** `substr_count($s, $c)` for a one-character needle. */
  function CountChar(s: string, c: char): (n: nat)
    ensures n == 0 <==> c !in s
    ensures n <= |s|
    decreases |s|
  {
    if |s| == 0 then 0
    else
      assert s == s[..|s| - 1] + [s[|s| - 1]];
      CountChar(s[..|s| - 1], c) + (if s[|s| - 1] == c then 1 else 0)
  }

  /** `implode($sep, $parts)`. */
  function Join(parts: seq<string>, sep: string): string
    decreases |parts|
  {
    if |parts| == 0 then ""
    else if |parts| == 1 then parts[0]
    else Join(parts[..|parts| - 1], sep) + sep + parts[|parts| - 1]
  }

  /** `explode($c, $s)` for a one-character delimiter: the maximal
      delimiter-free pieces of `s`, one more than there are delimiters. */
  function Explode(s: string, c: char): (parts: seq<string>)
    ensures |parts| > 0
    ensures forall i :: 0 <= i < |parts| ==> c !in parts[i]
    decreases |s|
  {
    if |s| == 0 then [""]
    else
      var rest := Explode(s[..|s| - 1], c);
      var last := s[|s| - 1];
      if last == c then rest + [""]
      else rest[..|rest| - 1] + [rest[|rest| - 1] + [last]]
  }

  /** Imploding the pieces of `explode` gives the original string back. */
  lemma {:induction false} JoinExplode(s: string, c: char)
    ensures Join(Explode(s, c), [c]) == s
    decreases |s|
  {
    if |s| > 0 {
      var init := s[..|s| - 1];
      var last := s[|s| - 1];
      JoinExplode(init, c);
      var rest := Explode(init, c);
      var n := |rest|;
      assert s == init + [last];
      if last != c {
        var parts := rest[..n - 1] + [rest[n - 1] + [last]];
        assert parts[..n - 1] == rest[..n - 1];
        if n > 1 {
          assert Join(parts, [c]) == Join(rest[..n - 1], [c]) + [c] + (rest[n - 1] + [last]);
          assert Join(rest, [c]) == Join(rest[..n - 1], [c]) + [c] + rest[n - 1];
        }
      } else {
        assert (rest + [""])[..n] == rest;
      }
    }
  }

  /** There is one more piece than there are delimiters. */
  lemma {:induction false} ExplodeCount(s: string, c: char)
    ensures |Explode(s, c)| == CountChar(s, c) + 1
    decreases |s|
  {
    if |s| > 0 {
      ExplodeCount(s[..|s| - 1], c);
    }
  }

  /** Joining delimiter-free pieces and exploding again gives the pieces back. */
  lemma {:induction false} ExplodeJoin(parts: seq<string>, c: char)
    requires |parts| > 0
    requires forall i :: 0 <= i < |parts| ==> c !in parts[i]
    ensures Explode(Join(parts, [c]), c) == parts
    decreases |parts|
  {
    var n := |parts|;
    if n == 1 {
      ExplodeFree(parts[0], c);
    } else {
      var init := parts[..n - 1];
      ExplodeJoin(init, c);
      var j := Join(init, [c]);
      assert Join(parts, [c]) == (j + [c]) + parts[n - 1];
      ExplodeDelimiter(j, c);
      var e := Explode(j + [c], c);
      assert e == init + [""];
      ExplodeAppendFree(j + [c], parts[n - 1], c);
      assert e[..|e| - 1] == init;
      assert e[|e| - 1] + parts[n - 1] == parts[n - 1];
      assert init + [parts[n - 1]] == parts;
    }
  }

  /** A delimiter-free string explodes to itself alone. */
  lemma {:induction false} ExplodeFree(s: string, c: char)
    requires c !in s
    ensures Explode(s, c) == [s]
    decreases |s|
  {
    if |s| > 0 {
      assert s[|s| - 1] in s;
      ExplodeFree(s[..|s| - 1], c);
      assert s[..|s| - 1] + [s[|s| - 1]] == s;
    }
  }

  /** Appending a delimiter opens a new, empty piece. */
  lemma ExplodeDelimiter(s: string, c: char)
    ensures Explode(s + [c], c) == Explode(s, c) + [""]
  {
    assert (s + [c])[..|s|] == s;
  }

  /** Appending one non-delimiter character extends the last piece. */
  lemma ExplodeSnoc(s: string, x: char, c: char)
    requires x != c
    ensures var e := Explode(s, c);
            Explode(s + [x], c) == e[..|e| - 1] + [e[|e| - 1] + [x]]
  {
    assert (s + [x])[..|s|] == s;
  }

  /** Appending delimiter-free text extends the last piece. */
  lemma {:induction false} ExplodeAppendFree(s: string, t: string, c: char)
    requires c !in t
    ensures var e := Explode(s, c);
            Explode(s + t, c) == e[..|e| - 1] + [e[|e| - 1] + t]
    decreases |t|
  {
    var e := Explode(s, c);
    if |t| == 0 {
      assert s + t == s;
      assert e[|e| - 1] + t == e[|e| - 1];
      assert e == e[..|e| - 1] + [e[|e| - 1]];
    } else {
      var t' := t[..|t| - 1];
      var x := t[|t| - 1];
      assert x in t;
      assert c !in t';
      ExplodeAppendFree(s, t', c);
      assert s + t == (s + t') + [x];
      ExplodeSnoc(s + t', x, c);
      var rest := Explode(s + t', c);
      var k := |rest|;
      assert rest[..k - 1] == e[..|e| - 1];
      assert rest[k - 1] + [x] == e[|e| - 1] + t;
      calc {
        Explode(s + t, c);
        Explode((s + t') + [x], c);
        rest[..k - 1] + [rest[k - 1] + [x]];
        e[..|e| - 1] + [e[|e| - 1] + t];
      }
    }
  }

  /** The last piece of `explode`, i.e. the text after the last delimiter. */
  function LastPiece(s: string, c: char): (r: string)
    ensures c !in r
    ensures EndsWith(s, r)
  {
    var parts := Explode(s, c);
    JoinExplode(s, c);
    JoinEndsWithLast(parts, [c]);
    parts[|parts| - 1]
  }

  /** Several strings joined by `.`, left to right. */
  function Concat(parts: seq<string>): string
    decreases |parts|
  {
    if |parts| == 0 then "" else parts[0] + Concat(parts[1..])
  }

  /** The concatenation of the last parts ends the concatenation of all. */
  lemma {:induction false} ConcatSuffix(parts: seq<string>, k: nat)
    requires k <= |parts|
    ensures EndsWith(Concat(parts), Concat(parts[k..]))
    decreases k
  {
    if k == 0 {
      assert parts[0..] == parts;
    } else {
      ConcatSuffix(parts[1..], k - 1);
      assert parts[1..][k - 1..] == parts[k..];
      var rest := Concat(parts[1..]);
      var tail := Concat(parts[k..]);
      assert (parts[0] + rest)[|parts[0] + rest| - |tail|..] == rest[|rest| - |tail|..];
    }
  }

  /** Two parts concatenate as the plain `+`. */
  lemma ConcatPair(a: string, b: string)
    ensures Concat([a, b]) == a + b
  {
    assert [a, b][1..] == [b];
    assert [b][1..] == [];
    assert Concat([b]) == b + "";
    assert b + "" == b;
  }

  /** Five parts concatenate as the plain `+`. */
  lemma ConcatFive(a: string, b: string, c: string, d: string, e: string)
    ensures Concat([a, b, c, d, e]) == a + b + c + d + e
  {
    ConcatPair(d, e);
    assert Concat([c, d, e]) == c + Concat([d, e]) by {
      assert [c, d, e][1..] == [d, e];
    }
    assert Concat([b, c, d, e]) == b + Concat([c, d, e]) by {
      assert [b, c, d, e][1..] == [c, d, e];
    }
    assert Concat([a, b, c, d, e]) == a + Concat([b, c, d, e]) by {
      assert [a, b, c, d, e][1..] == [b, c, d, e];
    }
  }

  /** Five parts in a row start with the first two and end with the last
      three; without the middle part the second is followed by the last two. */
  lemma FivePartEnds(a: string, b: string, c: string, d: string, e: string)
    ensures StartsWith(a + b + c + d + e, a + b)
    ensures EndsWith(a + b + c + d + e, c + d + e)
    ensures c == "" ==> EndsWith(a + b + c + d + e, b + d + e)
  {
    var s := a + b + c + d + e;
    assert s[..|a + b|] == a + b;
    assert s[|a + b|..] == c + d + e;
    if c == "" {
      assert s[|a|..] == b + d + e;
    }
  }

  /** A concatenation ends with its last two parts. */
  lemma ConcatLastTwo(parts: seq<string>)
    requires |parts| >= 2
    ensures EndsWith(Concat(parts), parts[|parts| - 2] + parts[|parts| - 1])
  {
    var n := |parts|;
    ConcatSuffix(parts, n - 2);
    assert parts[n - 2..] == [parts[n - 2], parts[n - 1]];
    ConcatPair(parts[n - 2], parts[n - 1]);
  }

  /** A concatenation starts with its left part and ends with its right part. */
  lemma ConcatEnds(a: string, b: string)
    ensures StartsWith(a + b, a) && EndsWith(a + b, b)
  {
    assert (a + b)[..|a|] == a;
    assert (a + b)[|a|..] == b;
  }

  lemma JoinEndsWithLast(parts: seq<string>, sep: string)
    requires |parts| > 0
    ensures EndsWith(Join(parts, sep), parts[|parts| - 1])
  {
  }

  /** `str_replace($from, $to, $s)` for one-character search and replacement. */
  function ReplaceChar(s: string, from: char, to: char): (r: string)
    ensures |r| == |s|
    ensures forall i :: 0 <= i < |s| ==> r[i] == (if s[i] == from then to else s[i])
  {
    seq(|s|, i requires 0 <= i < |s| => if s[i] == from then to else s[i])
  }

  /** Exploding after a character replacement is exploding on the replaced
      delimiter, when the replacement character did not already occur. */
  lemma {:induction false} ExplodeReplace(s: string, from: char, to: char)
    requires to !in s
    ensures Explode(ReplaceChar(s, from, to), to) == Explode(s, from)
    decreases |s|
  {
    if |s| > 0 {
      var init := s[..|s| - 1];
      ExplodeReplace(init, from, to);
      var r := ReplaceChar(s, from, to);
      assert r[..|r| - 1] == ReplaceChar(init, from, to);
    }
  }

  /** `s` with every trailing `c` removed. */
  function StripTrailing(s: string, c: char): (r: string)
    ensures r <= s
    ensures |r| == 0 || r[|r| - 1] != c
    ensures forall i :: |r| <= i < |s| ==> s[i] == c
    decreases |s|
  {
    if |s| > 0 && s[|s| - 1] == c then StripTrailing(s[..|s| - 1], c) else s
  }

  /** PHP `basename` with `/` as the only directory separator: trailing
      separators are ignored and the last path component is returned. */
  function Basename(path: string): (r: string)
    ensures '/' !in r
  {
    LastPiece(StripTrailing(path, '/'), '/')
  }

  /** The character for a decimal digit. */
  function DigitChar(d: nat): char
    requires d < 10
  {
    ('0' as int + d) as char
  }

  /** The decimal rendering of `n`, as PHP's string concatenation produces it. */
  function NatToString(n: nat): (r: string)
    ensures |r| > 0
  {
    if n < 10 then [DigitChar(n)] else NatToString(n / 10) + [DigitChar(n % 10)]
  }

  /** Every character is a decimal digit. */
  predicate AllDigits(s: string) {
    forall i :: 0 <= i < |s| ==> '0' <= s[i] <= '9'
  }

  /** A decimal rendering consists of digits and starts with `0` only for zero. */
  lemma {:induction false} NatToStringCanonical(n: nat)
    ensures AllDigits(NatToString(n))
    ensures NatToString(n)[0] == '0' <==> n == 0
  {
    if n >= 10 {
      NatToStringCanonical(n / 10);
      var s := NatToString(n);
      assert s[..|s| - 1] == NatToString(n / 10);
      assert s[0] == NatToString(n / 10)[0];
    }
  }

  /** Reads a string of decimal digits back as a number. */
  function ParseNat(s: string): nat
    decreases |s|
  {
    if |s| == 0 then 0
    else
      var c := s[|s| - 1];
      var d := if '0' <= c <= '9' then c as int - '0' as int else 0;
      10 * ParseNat(s[..|s| - 1]) + d
  }

  /** Rendering a number in decimal and reading it back gives the number. */
  lemma {:induction false} ParseNatToString(n: nat)
    ensures ParseNat(NatToString(n)) == n
  {
    if n >= 10 {
      ParseNatToString(n / 10);
      var s := NatToString(n);
      assert s[..|s| - 1] == NatToString(n / 10);
    }
  }

  /** A digit string with a nonzero first digit reads as a positive number. */
  lemma {:induction false} ParseNatPositive(s: string)
    requires |s| > 0 && AllDigits(s) && s[0] != '0'
    ensures ParseNat(s) > 0
    decreases |s|
  {
    if |s| > 1 {
      var t := s[..|s| - 1];
      assert t[0] == s[0];
      ParseNatPositive(t);
    }
  }

  /** Reading a digit string without a leading zero and rendering the
      number gives the string back. */
  lemma {:induction false} NatToStringParse(s: string)
    requires |s| > 0 && AllDigits(s) && (s[0] != '0' || |s| == 1)
    ensures NatToString(ParseNat(s)) == s
    decreases |s|
  {
    var t := s[..|s| - 1];
    var c := s[|s| - 1];
    var d := c as int - '0' as int;
    assert ParseNat(s) == 10 * ParseNat(t) + d;
    assert DigitChar(d) == c;
    if |t| == 0 {
      assert s == [c];
    } else {
      assert t[0] == s[0];
      ParseNatPositive(t);
      NatToStringParse(t);
      var n := ParseNat(s);
      assert n / 10 == ParseNat(t) && n % 10 == d;
      assert s == t + [c];
    }
  }

  /** Distinct numbers have distinct decimal renderings. */
  lemma NatToStringInjective(m: nat, n: nat)
    requires NatToString(m) == NatToString(n)
    ensures m == n
  {
    ParseNatToString(m);
    ParseNatToString(n);
  }
}

=== FILE: properties.dfy ===
/** The property helpers: `publicPropertiesCountOrNull` and
    `getSinglePublicReflectionPropertyOrNull`. Both catch the reflection
    failure of a class that is not loaded and answer `null`. */
module Properties {
  import opened Wrappers
  import opened Seqs
  import opened Runtime

  function IsPublic(p: Property): bool {
    p.isPublic
  }

  /** The public entries of `getProperties()`, in order. */
  function PublicProperties(props: seq<Property>): seq<Property> {
    Filter(props, IsPublic)
  }

  /** `publicPropertiesCountOrNull($class)`: the number of public properties,
      or `None` (PHP `null`) when the class cannot be reflected. */
  method PublicPropertiesCountOrNull(w: World, className: ClassName) returns (r: Option<nat>)
    ensures r.None? <==> className !in w.classes
    ensures r.Some? ==> r.value == |PublicProperties(w.classes[className].properties)|
    ensures r.Some? ==>
              (r.value == 0 <==> forall k :: 0 <= k < |w.classes[className].properties|
                                             ==> !w.classes[className].properties[k].isPublic)
  {
    if className !in w.classes {
      return None;
    }
    var props := w.classes[className].properties;
    var count := 0;
    var i := 0;
    while i < |props|
      invariant 0 <= i <= |props|
      invariant count == |PublicProperties(props[..i])|
    {
      FilterSnoc(props, i, IsPublic);
      if props[i].isPublic {
        count := count + 1;
      }
      i := i + 1;
    }
    assert props[..|props|] == props;
    FilterEmpty(props, IsPublic);
    return Some(count);
  }

  /** `getSinglePublicReflectionPropertyOrNull($class)`: the public property
      when there is exactly one, otherwise `None` (PHP `null`), also when the
      class cannot be reflected. */
  method GetSinglePublicReflectionPropertyOrNull(w: World, className: ClassName) returns (r: Option<Property>)
    ensures r.Some? <==>
              className in w.classes && |PublicProperties(w.classes[className].properties)| == 1
    ensures r.Some? ==>
              && r.value in w.classes[className].properties
              && r.value.isPublic
              && forall q :: q in w.classes[className].properties && q.isPublic ==> q == r.value
  {
    if className !in w.classes {
      return None;
    }
    var props := w.classes[className].properties;
    var count := 0;
    var last: Option<Property> := None;
    var i := 0;
    while i < |props|
      invariant 0 <= i <= |props|
      invariant count == |PublicProperties(props[..i])|
      invariant last.Some? <==> count > 0
      invariant last.Some? ==> last.value == PublicProperties(props[..i])[count - 1]
    {
      FilterSnoc(props, i, IsPublic);
      if props[i].isPublic {
        count := count + 1;
        last := Some(props[i]);
      }
      i := i + 1;
    }
    assert props[..|props|] == props;
    if count == 1 {
      OnlyPublic(props);
      return last;
    }
    return None;
  }

  /** With exactly one public property, every public property is that one. */
  lemma OnlyPublic(props: seq<Property>)
    requires |PublicProperties(props)| == 1
    ensures PublicProperties(props)[0] in props && PublicProperties(props)[0].isPublic
    ensures forall q :: q in props && q.isPublic ==> q == PublicProperties(props)[0]
  {
    var pub := PublicProperties(props);
    FilterMembers(props, IsPublic);
    forall q | q in props && q.isPublic ensures q == pub[0] {
      var k :| 0 <= k < |props| && props[k] == q;
      assert IsPublic(props[k]);
      assert q in pub;
    }
  }
}

=== FILE: runtime.dfy ===
/** An abstract stand-in for the PHP reflection runtime the helper class
    queries: which classes are loaded, each one's parent class, the interfaces
    it implements, the methods it has, its constants and its properties. */
module Runtime {
  import opened Wrappers

  type ClassName = string

  /** A constant value. Only integers and strings are modelled; floats,
      booleans, `null` and arrays are not. */
  datatype ConstValue = IntValue(i: int) | StringValue(s: string)

  /** One entry of `ReflectionClass::getConstants()`. */
  datatype Constant = Constant(name: string, value: ConstValue)

  /** One entry of `ReflectionClass::getProperties()`. */
  datatype Property = Property(name: string, isPublic: bool)

  /** What reflection knows about one loaded class or interface.
      `depth` is the length of the parent chain above it; it is the measure
      that lets walks up the hierarchy terminate. `interfaces` is what
      `class_implements`/`getInterfaces()` return: every interface implemented
      directly, through a parent, or through another interface. `methods` is
      what `hasMethod` answers for, inherited methods included. */
  datatype ClassInfo = ClassInfo(
    isInterface: bool,
    depth: nat,
    parent: Option<ClassName>,
    interfaces: seq<ClassName>,
    methods: set<string>,
    constants: seq<Constant>,
    properties: seq<Property>)

  /** The loaded classes, by name. */
  datatype World = World(classes: map<ClassName, ClassInfo>)

  /** The "object or class name" arguments of the helper class: a live
      instance of a class, which `get_class` resolves, or a bare class name. */
  datatype ClassRef = Instance(ofClass: ClassName) | Named(name: ClassName)

  /** The exceptions the helper class lets escape. */
  datatype Error =
    | ReflectionFailure(className: ClassName)
    | CannotMock(declaringClass: ClassName, methodName: string)

  /** `get_class($object)` for an instance, the name itself otherwise. */
  function Resolve(r: ClassRef): ClassName {
    match r
    case Instance(c) => c
    case Named(n) => n
  }

  /** `get_parent_class($c)`: `None` for a root class and for a name that is
      not loaded. */
  function ParentOf(w: World, c: ClassName): Option<ClassName> {
    if c in w.classes then w.classes[c].parent else None
  }

  /** The termination measure of a walk up from `c`. */
  function Rank(w: World, c: ClassName): nat {
    if c in w.classes then w.classes[c].depth + 1 else 0
  }

  /** An interface has no parent class; a class's parent is a loaded class
      (not an interface) that sits strictly higher and passes on its
      interfaces and methods. */
  ghost predicate ParentLinked(w: World, c: ClassName)
    requires c in w.classes
  {
    match w.classes[c].parent
    case None => true
    case Some(p) =>
      && !w.classes[c].isInterface
      && p in w.classes
      && !w.classes[p].isInterface
      && w.classes[p].depth < w.classes[c].depth
      && (forall i :: i in w.classes[p].interfaces ==> i in w.classes[c].interfaces)
      && w.classes[p].methods <= w.classes[c].methods
  }

  /** The interface list is transitively closed: every interface in it is a
      loaded interface, whose own interfaces and methods are
      also those of `c`; and `c` is not among its own interfaces. */
  ghost predicate InterfacesClosed(w: World, c: ClassName)
    requires c in w.classes
  {
    var info := w.classes[c];
    && c !in info.interfaces
    && forall i :: i in info.interfaces ==>
         && i in w.classes
         && w.classes[i].isInterface
         && (forall j :: j in w.classes[i].interfaces ==> j in info.interfaces)
         && w.classes[i].methods <= info.methods
  }

  /** Constant names of one class are distinct, as the keys of a PHP array are. */
  predicate ConstantNamesDistinct(cs: seq<Constant>) {
    forall j, k :: 0 <= j < k < |cs| ==> cs[j].name != cs[k].name
  }

  /** What the PHP runtime guarantees of one loaded class. */
  ghost predicate ClassValid(w: World, c: ClassName)
    requires c in w.classes
  {
    && ParentLinked(w, c)
    && InterfacesClosed(w, c)
    && ConstantNamesDistinct(w.classes[c].constants)
  }

  /** What the PHP runtime guarantees of its loaded classes. The facts about
      one class are unfolded on demand through `ValidAt`. */
  ghost predicate Valid(w: World) {
    forall c {:trigger ClassValid(w, c)} :: c in w.classes ==> ClassValid(w, c)
  }

  lemma ValidAt(w: World, c: ClassName)
    requires Valid(w) && c in w.classes
    ensures ParentLinked(w, c) && InterfacesClosed(w, c)
    ensures ConstantNamesDistinct(w.classes[c].constants)
  {
    assert ClassValid(w, c);
  }
}

=== FILE: seqs.dfy ===
/** Order-preserving sequence combinators: reference definitions of what
    the `foreach` loops of the helper class collect from PHP lists. */
module Seqs {

  /** The elements of `s` satisfying `p`, in their original order. Defined from
      the back so that it unfolds the way a left-to-right `foreach` grows. */
  function Filter<T>(s: seq<T>, p: T -> bool): (r: seq<T>)
    ensures |r| <= |s|
    decreases |s|
  {
    if |s| == 0 then []
    else
      var init := Filter(s[..|s| - 1], p);
      if p(s[|s| - 1]) then init + [s[|s| - 1]] else init
  }

  /** A filter keeps exactly the elements that pass: each survivor is an
      element of the input that passes, and each passing element survives. */
  lemma {:induction false} FilterMembers<T>(s: seq<T>, p: T -> bool)
    ensures forall i :: 0 <= i < |Filter(s, p)| ==> Filter(s, p)[i] in s && p(Filter(s, p)[i])
    ensures forall i :: 0 <= i < |s| && p(s[i]) ==> s[i] in Filter(s, p)
    decreases |s|
  {
    if |s| > 0 {
      var init := s[..|s| - 1];
      FilterMembers(init, p);
      assert forall i :: 0 <= i < |s| - 1 ==> s[i] == init[i];
    }
  }

  /** `f` applied to every element of `s`. */
  function Map<A, B>(s: seq<A>, f: A -> B): (r: seq<B>)
    ensures |r| == |s|
    ensures forall i :: 0 <= i < |s| ==> r[i] == f(s[i])
    decreases |s|
  {
    if |s| == 0 then []
    else
      assert forall i :: 0 <= i < |s| - 1 ==> s[i] == s[..|s| - 1][i];
      Map(s[..|s| - 1], f) + [f(s[|s| - 1])]
  }

  /** Pairs every element with its position, as a PHP `foreach ($a as $i => $x)`. */
  function Indexed<T>(s: seq<T>): (r: seq<(nat, T)>)
    ensures |r| == |s|
    ensures forall i :: 0 <= i < |s| ==> r[i] == (i, s[i])
    decreases |s|
  {
    if |s| == 0 then []
    else
      assert forall i :: 0 <= i < |s| - 1 ==> s[i] == s[..|s| - 1][i];
      Indexed(s[..|s| - 1]) + [(|s| - 1, s[|s| - 1])]
  }

  /** The images under `f` of the positions among the first `n` of `s`
      that `keep` accepts, in order: what a `foreach ($s as $i => $x)` with
      a `continue` collects. */
  function Collect<T, B>(s: seq<T>, keep: ((nat, T)) -> bool, f: ((nat, T)) -> B, n: nat): (r: seq<B>)
    requires n <= |s|
    ensures |r| <= n
    decreases n
  {
    if n == 0 then []
    else
      var e := (n - 1, s[n - 1]);
      Collect(s, keep, f, n - 1) + (if keep(e) then [f(e)] else [])
  }

  /** Collecting is mapping the kept entries of the indexed prefix. */
  lemma {:induction false} CollectIsMapFilter<T, B>(s: seq<T>, keep: ((nat, T)) -> bool, f: ((nat, T)) -> B, n: nat)
    requires n <= |s|
    ensures Collect(s, keep, f, n) == Map(Filter(Indexed(s)[..n], keep), f)
    decreases n
  {
    var indexed := Indexed(s);
    if n == 0 {
      assert indexed[..0] == [];
    } else {
      CollectIsMapFilter(s, keep, f, n - 1);
      FilterSnoc(indexed, n - 1, keep);
      MapSnoc(Filter(indexed[..n - 1], keep), indexed[n - 1], f);
    }
  }

  /** Mapping a sequence grown by one element grows the image by its image. */
  lemma MapSnoc<A, B>(s: seq<A>, x: A, f: A -> B)
    ensures Map(s + [x], f) == Map(s, f) + [f(x)]
  {
    assert (s + [x])[..|s|] == s;
  }

  /** Filtering one more element of a prefix appends that element exactly when it passes. */
  lemma FilterSnoc<T>(s: seq<T>, i: nat, p: T -> bool)
    requires i < |s|
    ensures Filter(s[..i + 1], p) == Filter(s[..i], p) + (if p(s[i]) then [s[i]] else [])
  {
    assert s[..i + 1][..i] == s[..i];
  }

  /** The first survivor of a filter is the earliest element of the input that passes. */
  lemma {:induction false} FilterFirst<T>(s: seq<T>, p: T -> bool)
    requires |Filter(s, p)| > 0
    ensures exists j :: 0 <= j < |s| && s[j] == Filter(s, p)[0] && p(s[j])
                        && forall k :: 0 <= k < j ==> !p(s[k])
  {
    var n := |s|;
    var init := s[..n - 1];
    if |Filter(init, p)| > 0 {
      FilterFirst(init, p);
      var j :| 0 <= j < |init| && init[j] == Filter(init, p)[0] && p(init[j])
               && forall k :: 0 <= k < j ==> !p(init[k]);
      assert s[j] == init[j];
      assert forall k :: 0 <= k < j ==> s[k] == init[k];
    } else {
      FilterMembers(init, p);
      assert forall k :: 0 <= k < n - 1 ==> !p(s[k]) by {
        forall k | 0 <= k < n - 1 ensures !p(s[k]) {
          assert s[k] == init[k];
        }
      }
      assert Filter(s, p) == [s[n - 1]];
    }
  }

  /** The position of an element of a prefix. */
  lemma PrefixIndex<T>(s: seq<T>, k: nat, x: T) returns (j: nat)
    requires k < |s| && x in s[..k + 1]
    ensures j <= k && s[j] == x
  {
    var i :| 0 <= i < k + 1 && s[..k + 1][i] == x;
    j := i;
  }

  /** A filter keeps nothing exactly when no element passes. */
  lemma FilterEmpty<T>(s: seq<T>, p: T -> bool)
    ensures |Filter(s, p)| == 0 <==> forall k :: 0 <= k < |s| ==> !p(s[k])
  {
    FilterMembers(s, p);
    if |Filter(s, p)| > 0 {
      assert Filter(s, p)[0] in Filter(s, p);
    }
  }

  /** A filter whose predicate holds everywhere keeps the whole sequence. */
  lemma {:induction false} FilterAll<T>(s: seq<T>, p: T -> bool)
    requires forall x :: x in s ==> p(x)
    ensures Filter(s, p) == s
    decreases |s|
  {
    if |s| > 0 {
      var init := s[..|s| - 1];
      FilterAll(init, p);
      assert init + [s[|s| - 1]] == s;
    }
  }

  /** Filters with predicates that agree on the input are equal. */
  lemma {:induction false} FilterCongruent<T>(s: seq<T>, p: T -> bool, q: T -> bool)
    requires forall x :: x in s ==> p(x) == q(x)
    ensures Filter(s, p) == Filter(s, q)
    decreases |s|
  {
    if |s| > 0 {
      FilterCongruent(s[..|s| - 1], p, q);
    }
  }

  /** Filtering twice is filtering once by the conjunction. */
  lemma {:induction false} FilterFilter<T>(s: seq<T>, p: T -> bool, q: T -> bool, pq: T -> bool)
    requires forall x :: pq(x) == (p(x) && q(x))
    ensures Filter(Filter(s, p), q) == Filter(s, pq)
    decreases |s|
  {
    if |s| > 0 {
      var n := |s|;
      var init := s[..n - 1];
      FilterFilter(init, p, q, pq);
      if p(s[n - 1]) {
        var fi := Filter(init, p);
        assert Filter(s, p) == fi + [s[n - 1]];
        assert (fi + [s[n - 1]])[..|fi|] == fi;
      }
    }
  }

  /** Filtering a sequence with one more element in front puts that element
      first exactly when it passes. */
  lemma {:induction false} FilterCons<T>(x: T, s: seq<T>, p: T -> bool)
    ensures Filter([x] + s, p) == (if p(x) then [x] else []) + Filter(s, p)
    decreases |s|
  {
    if |s| == 0 {
      assert [x] + s == [x];
      assert [x][..0] == [];
    } else {
      var init := s[..|s| - 1];
      FilterCons(x, init, p);
      assert ([x] + s)[..|s|] == [x] + init;
      assert ([x] + s)[|s|] == s[|s| - 1];
    }
  }

  /** Mapping distributes over concatenation. */
  lemma MapAppend<A, B>(s: seq<A>, t: seq<A>, f: A -> B)
    ensures Map(s + t, f) == Map(s, f) + Map(t, f)
  {
    assert forall i :: 0 <= i < |s + t| ==> Map(s + t, f)[i] == (Map(s, f) + Map(t, f))[i];
  }
}

=== FILE: signatures.dfy ===
/** Rendering of method signatures: `getMethodParameters` (the parameter list
    of a declaration or of a call) and `generateMethodWithoutBody` (an
    abstract-style declaration of a reflected method). */
module Signatures {
  import opened Wrappers
  import opened Seqs
  import opened PhpStrings
  import opened Runtime

  /** A declared type: its name (`getName()`, which is also what the string
      cast gives) and whether reflection calls it built-in. */
  datatype NamedType = NamedType(name: string, isBuiltin: bool)

  /** What `ReflectionParameter::getClass()` does: no class, a loaded class,
      or a `ReflectionException` because the class is not loaded. */
  datatype ClassHint = NoClassHint | HintedClass(className: ClassName) | ClassNotLoaded

  /** One `ReflectionParameter`. `defaultValue` is the `var_export` text of
      the default value when one is available. */
  datatype Param = Param(
    name: string,
    typ: Option<NamedType>,
    allowsNull: bool,
    isArray: bool,
    isCallable: bool,
    classHint: ClassHint,
    isVariadic: bool,
    isOptional: bool,
    defaultValue: Option<string>,
    byRef: bool)

  datatype Visibility = Public | Protected | Private

  datatype ReturnType = ReturnType(t: NamedType, allowsNull: bool)

  /** One `ReflectionMethod`. */
  datatype Method = Method(
    declaringClass: ClassName,
    name: string,
    params: seq<Param>,
    isAbstract: bool,
    isStatic: bool,
    visibility: Visibility,
    returnType: Option<ReturnType>)

  /** The variable of parameter number `i`. Extensions may report an empty
      name or `...`; such a parameter is called `$arg<i>`. */
  function VarName(p: Param, i: nat): string {
    if p.name == "" || p.name == "..." then "$arg" + NatToString(i) else "$" + p.name
  }

  /** A variable is `$` and a non-empty name: the parameter's own name
      unless that is replaced. */
  lemma VarNameShape(p: Param, i: nat)
    ensures |VarName(p, i)| > 1 && VarName(p, i)[0] == '$'
    ensures p.name != "" && p.name != "..." ==> VarName(p, i)[1..] == p.name
    ensures p.name == "" || p.name == "..." ==> VarName(p, i)[1..] == "arg" + NatToString(i)
  {
    var r := VarName(p, i);
    if p.name == "" || p.name == "..." {
      assert r[1..] == "arg" + NatToString(i);
    } else {
      assert r[1..] == p.name;
    }
  }

  /** The variable as it appears in the list: a variadic one is spread. */
  function ParamName(p: Param, i: nat): string {
    if p.isVariadic then "..." + VarName(p, i) else VarName(p, i)
  }

  /** The scalar type names written without a leading backslash. */
  const ScalarTypeNames: seq<string> := ["string", "int", "float", "bool"]

  /** A type name as it appears after `): `: a class type is qualified from
      the global namespace, a built-in type and `self` are not. */
  function QualifiedTypeName(t: NamedType): string {
    if !t.isBuiltin && t.name != "self" then "\\" + t.name else t.name
  }

  /** The qualified name ends with the type's name and gains a leading
      backslash exactly for a class type. */
  lemma QualifiedTypeNameShape(t: NamedType)
    ensures EndsWith(QualifiedTypeName(t), t.name)
    ensures t.name != "" && t.name[0] != '\\' ==>
              (QualifiedTypeName(t)[0] == '\\' <==> !t.isBuiltin && t.name != "self")
  {
    ConcatEnds("\\", t.name);
  }

  /** The type hint of a typed parameter, as written: only the four scalar
      names escape the leading backslash. */
  function ParamTypeHintAsWritten(t: NamedType): (r: string)
    ensures r == t.name + " " || r == "\\" + t.name + " "
  {
    if t.name in ScalarTypeNames then t.name + " " else "\\" + t.name + " "
  }

  /** The type hint of a typed parameter other than `self`: qualified
      exactly when the type is a class, the way the return type is. */
  function ParamTypeHint(t: NamedType): string {
    if t.isBuiltin then t.name + " " else "\\" + t.name + " "
  }

  /** Apart from `self`, a parameter type is written as the return type is,
      followed by a space: with a leading backslash exactly for a class. */
  lemma ParamTypeHintShape(t: NamedType)
    ensures |ParamTypeHint(t)| > |t.name|
    ensures t.name != "self" ==> ParamTypeHint(t) == QualifiedTypeName(t) + " "
    ensures t.name != "" && t.name[0] != '\\' ==> (ParamTypeHint(t)[0] == '\\' <==> !t.isBuiltin)
  {
  }

  /** A built-in `array` parameter type is rendered `\array ` as written,
      a class reference PHP does not resolve to the array type. */
  lemma ArrayHintAsWritten()
    ensures ParamTypeHintAsWritten(NamedType("array", true)) == "\\array "
    ensures ParamTypeHint(NamedType("array", true)) == "array "
  {
  }

  /** Reflection calls the scalar names built-in. */
  predicate ScalarsBuiltin(t: NamedType) {
    t.name in ScalarTypeNames ==> t.isBuiltin
  }

  /** The whitelist and the built-in flag disagree exactly on the built-in
      types outside the whitelist (`array`, `callable`, `iterable`, ...). */
  lemma AsWrittenDiffersOnBuiltins(t: NamedType)
    requires ScalarsBuiltin(t)
    ensures ParamTypeHintAsWritten(t) == ParamTypeHint(t) <==> t.name in ScalarTypeNames || !t.isBuiltin
  {
    if t.isBuiltin && t.name !in ScalarTypeNames {
      assert |ParamTypeHintAsWritten(t)| != |ParamTypeHint(t)|;
    }
  }

  /** The class of a parameter typed by a class that is not loaded: the
      parameter has no usable type (none, or `self`), is neither `array`
      nor `callable`, and `getClass()` throws. */
  predicate UnloadedClass(p: Param) {
    && (p.typ.None? || p.typ.value.name == "self")
    && !p.isArray
    && !p.isCallable
    && p.classHint.ClassNotLoaded?
  }

  /** The type declaration of one parameter in a declaration list, as
      written: the type hint with the four-name whitelist, else `array `,
      `callable ` or the class of `getClass()`, else nothing. A class that
      is not loaded makes the method unmockable. */
  function TypeDeclaration(m: Method, p: Param): (r: Result<string, Error>)
    ensures r.Err? <==> UnloadedClass(p)
    ensures r.Err? ==> r.error == CannotMock(m.declaringClass, m.name)
    ensures p.typ.Some? && p.typ.value.name != "self" ==>
              r.Ok? && EndsWith(r.value, p.typ.value.name + " ")
  {
    if p.typ.Some? && p.typ.value.name != "self" then
      var h := ParamTypeHintAsWritten(p.typ.value);
      ConcatEnds("\\", p.typ.value.name + " ");
      assert h == p.typ.value.name + " " || h == "\\" + (p.typ.value.name + " ");
      Ok(h)
    else OtherTypeDeclaration(m, p)
  }

  /** The branches after the type hint: `array `, `callable `, or the class
      of `getClass()`, which throws for a class that is not loaded. */
  function OtherTypeDeclaration(m: Method, p: Param): Result<string, Error> {
    if p.isArray then Ok("array ")
    else if p.isCallable then Ok("callable ")
    else
      match p.classHint
      case NoClassHint => Ok("")
      case HintedClass(c) => Ok(c + " ")
      case ClassNotLoaded => Err(CannotMock(m.declaringClass, m.name))
  }

  /** The type declaration with the intended type hint: a typed parameter
      other than `self` is written as a return type is, then a space. */
  function TypeDeclarationIntended(m: Method, p: Param): (r: Result<string, Error>)
    ensures r.Err? <==> UnloadedClass(p)
    ensures r.Err? ==> r.error == CannotMock(m.declaringClass, m.name)
    ensures p.typ.Some? && p.typ.value.name != "self" ==>
              r == Ok(QualifiedTypeName(p.typ.value) + " ")
  {
    if p.typ.Some? && p.typ.value.name != "self" then Ok(ParamTypeHint(p.typ.value))
    else OtherTypeDeclaration(m, p)
  }

  /** The written and the intended type declarations differ exactly for a
      parameter typed by a built-in outside the whitelist. */
  lemma TypeDeclarationDiffers(m: Method, p: Param)
    requires p.typ.Some? ==> ScalarsBuiltin(p.typ.value)
    ensures TypeDeclaration(m, p) != TypeDeclarationIntended(m, p) <==>
              && p.typ.Some? && p.typ.value.name != "self"
              && p.typ.value.isBuiltin && p.typ.value.name !in ScalarTypeNames
  {
    if p.typ.Some? && p.typ.value.name != "self" {
      AsWrittenDiffersOnBuiltins(p.typ.value);
    }
  }

  /** `?` before a parameter that has a type and accepts null. */
  function Nullable(p: Param): string {
    if p.typ.Some? && p.allowsNull then "?" else ""
  }

  function Reference(p: Param): string {
    if p.byRef then "&" else ""
  }

  /** The default of a non-variadic parameter: the exported default value,
      else `= null` for an optional one. */
  function DefaultPart(p: Param): string {
    if p.isVariadic then ""
    else if p.defaultValue.Some? then " = " + p.defaultValue.value
    else if p.isOptional then " = null"
    else ""
  }

  /** The text of parameter number `i` in the list. For a call only the
      reference marker and the variable are written; for a declaration the
      nullability, the type, the reference marker, the (spread) variable and
      the default. */
  function Piece(m: Method, p: Param, i: nat, forCall: bool): (r: Result<string, Error>)
    ensures r.Err? <==> !forCall && UnloadedClass(p)
    ensures r.Err? ==> r.error == CannotMock(m.declaringClass, m.name)
  {
    if forCall then Ok(Concat([Reference(p), ParamName(p, i)]))
    else
      match TypeDeclaration(m, p)
      case Err(e) => Err(e)
      case Ok(t) => Ok(Concat([Nullable(p), t, Reference(p), ParamName(p, i), DefaultPart(p)]))
  }

  /** In a call a parameter is only its reference marker and variable: no
      type, no default. */
  lemma CallPiece(m: Method, p: Param, i: nat)
    ensures Piece(m, p, i, true) == Ok(Reference(p) + ParamName(p, i))
  {
    ConcatPair(Reference(p), ParamName(p, i));
  }

  /** In a call a parameter ends with its variable and starts with `&`
      exactly when it is passed by reference. */
  lemma CallPieceShape(m: Method, p: Param, i: nat)
    ensures Piece(m, p, i, true).Ok?
    ensures EndsWith(Piece(m, p, i, true).value, VarName(p, i))
    ensures StartsWith(Piece(m, p, i, true).value, "&") <==> p.byRef
  {
    CallPiece(m, p, i);
    var v := VarName(p, i);
    var piece := Reference(p) + ParamName(p, i);
    assert piece[|piece| - |v|..] == v;
    assert ParamName(p, i)[0] != '&';
    if !p.byRef {
      assert piece[0] != '&';
    }
  }

  /** In a call the type, nullability, optionality and default of a
      parameter play no part: two parameters that agree on name, reference
      and spread give the same text. */
  lemma CallPieceIgnoresDeclaration(m: Method, p: Param, q: Param, i: nat)
    requires p.name == q.name && p.byRef == q.byRef && p.isVariadic == q.isVariadic
    ensures Piece(m, p, i, true) == Piece(m, q, i, true)
  {
  }

  /** A declared parameter is its five parts in order. */
  lemma DeclarationPieceParts(m: Method, p: Param, i: nat)
    requires !UnloadedClass(p)
    ensures Piece(m, p, i, false)
              == Ok(Nullable(p) + TypeDeclaration(m, p).value + Reference(p) + ParamName(p, i) + DefaultPart(p))
  {
    ConcatFive(Nullable(p), TypeDeclaration(m, p).value, Reference(p), ParamName(p, i), DefaultPart(p));
  }

  /** A declared parameter reads, in order: `?` exactly when it is typed and
      nullable, then its type, then `&` right before the variable, then the
      default. */
  lemma DeclarationPieceOrder(m: Method, p: Param, i: nat)
    requires !UnloadedClass(p)
    ensures Piece(m, p, i, false).Ok?
    ensures p.typ.Some? && p.allowsNull ==>
              StartsWith(Piece(m, p, i, false).value, "?" + TypeDeclaration(m, p).value)
    ensures !(p.typ.Some? && p.allowsNull) ==>
              StartsWith(Piece(m, p, i, false).value, TypeDeclaration(m, p).value)
    ensures p.byRef ==>
              EndsWith(Piece(m, p, i, false).value, "&" + ParamName(p, i) + DefaultPart(p))
    ensures !p.byRef ==>
              EndsWith(Piece(m, p, i, false).value, TypeDeclaration(m, p).value + ParamName(p, i) + DefaultPart(p))
  {
    DeclarationPieceParts(m, p, i);
    FivePartEnds(Nullable(p), TypeDeclaration(m, p).value, Reference(p), ParamName(p, i), DefaultPart(p));
  }

  /** A variadic parameter is declared spread and without a default. */
  lemma VariadicPiece(m: Method, p: Param, i: nat)
    requires p.isVariadic && !UnloadedClass(p)
    ensures Piece(m, p, i, false).Ok?
    ensures EndsWith(Piece(m, p, i, false).value, "..." + VarName(p, i))
  {
    var parts := [Nullable(p), TypeDeclaration(m, p).value, Reference(p), ParamName(p, i), DefaultPart(p)];
    ConcatLastTwo(parts);
    assert parts[3] + parts[4] == "..." + VarName(p, i);
  }

  /** An optional parameter whose default reflection cannot give is declared
      with the default `null`. */
  lemma OptionalPiece(m: Method, p: Param, i: nat)
    requires !p.isVariadic && p.isOptional && p.defaultValue.None? && !UnloadedClass(p)
    ensures Piece(m, p, i, false).Ok?
    ensures EndsWith(Piece(m, p, i, false).value, VarName(p, i) + " = null")
  {
    var parts := [Nullable(p), TypeDeclaration(m, p).value, Reference(p), ParamName(p, i), DefaultPart(p)];
    ConcatLastTwo(parts);
    assert parts[3] + parts[4] == VarName(p, i) + " = null";
  }

  /** A non-variadic parameter with an available default is declared with
      the exported value after ` = `. */
  lemma DefaultValuePiece(m: Method, p: Param, i: nat)
    requires !p.isVariadic && p.defaultValue.Some? && !UnloadedClass(p)
    ensures Piece(m, p, i, false).Ok?
    ensures EndsWith(Piece(m, p, i, false).value, VarName(p, i) + " = " + p.defaultValue.value)
  {
    var parts := [Nullable(p), TypeDeclaration(m, p).value, Reference(p), ParamName(p, i), DefaultPart(p)];
    ConcatLastTwo(parts);
    assert parts[3] + parts[4] == VarName(p, i) + " = " + p.defaultValue.value;
  }

  /** Which positions appear in the list: a call omits the variadic ones. */
  function KeepFor(forCall: bool): ((nat, Param)) -> bool {
    (e: (nat, Param)) => !(forCall && e.1.isVariadic)
  }

  /** The text of a kept position (the error case never reaches the list). */
  function PieceText(m: Method, forCall: bool, e: (nat, Param)): string {
    match Piece(m, e.1, e.0, forCall)
    case Ok(s) => s
    case Err(_) => ""
  }

  function TextFor(m: Method, forCall: bool): ((nat, Param)) -> string {
    (e: (nat, Param)) => PieceText(m, forCall, e)
  }

  /** The reference definition of the parameter list: the unmockable error
      when a declared parameter's class is not loaded, else the texts of the
      kept parameters, in order, joined by `, `. */
  function ParameterList(m: Method, forCall: bool): Result<string, Error> {
    if !forCall && exists k :: 0 <= k < |m.params| && UnloadedClass(m.params[k]) then
      Err(CannotMock(m.declaringClass, m.name))
    else
      Ok(Join(Map(Filter(Indexed(m.params), KeepFor(forCall)), TextFor(m, forCall)), ", "))
  }

  /** The state of the `foreach` of `getMethodParameters` after the first
      `n` parameters: the `$parameters` array so far, or the exception. */
  function ListSoFar(m: Method, forCall: bool, n: nat): Result<seq<string>, Error>
    requires n <= |m.params|
    decreases n
  {
    if n == 0 then Ok([])
    else
      match ListSoFar(m, forCall, n - 1)
      case Err(e) => Err(e)
      case Ok(ps) =>
        if forCall && m.params[n - 1].isVariadic then Ok(ps)
        else
          match Piece(m, m.params[n - 1], n - 1, forCall)
          case Err(e) => Err(e)
          case Ok(t) => Ok(ps + [t])
  }

  /** The loop fails exactly when a declared parameter among the first `n`
      has a class that is not loaded, and then with the unmockable error. */
  lemma {:induction false} ListSoFarFails(m: Method, forCall: bool, n: nat)
    requires n <= |m.params|
    ensures ListSoFar(m, forCall, n).Err? <==>
              !forCall && exists k :: 0 <= k < n && UnloadedClass(m.params[k])
    ensures ListSoFar(m, forCall, n).Err? ==>
              ListSoFar(m, forCall, n).error == CannotMock(m.declaringClass, m.name)
    decreases n
  {
    if n > 0 {
      ListSoFarFails(m, forCall, n - 1);
      var p := m.params[n - 1];
      var prev := ListSoFar(m, forCall, n - 1);
      if prev.Err? {
        var k :| 0 <= k < n - 1 && UnloadedClass(m.params[k]);
        assert 0 <= k < n && UnloadedClass(m.params[k]);
      } else if !(forCall && p.isVariadic) {
        if Piece(m, p, n - 1, forCall).Err? {
          assert UnloadedClass(m.params[n - 1]);
        } else if !forCall {
          forall k | 0 <= k < n ensures !UnloadedClass(m.params[k]) {
            if k == n - 1 {
              assert !UnloadedClass(p);
            }
          }
        }
      }
    }
  }

  /** A loop that has not failed has collected the texts of the kept
      positions, in order. */
  lemma {:induction false} ListSoFarCollects(m: Method, forCall: bool, n: nat)
    requires n <= |m.params|
    ensures ListSoFar(m, forCall, n).Ok? ==>
              ListSoFar(m, forCall, n).value == Collect(m.params, KeepFor(forCall), TextFor(m, forCall), n)
    decreases n
  {
    if n > 0 {
      ListSoFarCollects(m, forCall, n - 1);
      var p := m.params[n - 1];
      var e := (n - 1, p);
      var keep, text := KeepFor(forCall), TextFor(m, forCall);
      var before := Collect(m.params, keep, text, n - 1);
      assert Collect(m.params, keep, text, n) == before + (if keep(e) then [text(e)] else []);
      if ListSoFar(m, forCall, n - 1).Ok? {
        assert keep(e) == !(forCall && p.isVariadic);
        var piece := Piece(m, p, n - 1, forCall);
        if !(forCall && p.isVariadic) && piece.Ok? {
          assert text(e) == PieceText(m, forCall, e) == piece.value;
        }
      }
    }
  }

  /** A finished loop gives the reference parameter list. */
  lemma ParameterListFromLoop(m: Method, forCall: bool)
    ensures ListSoFar(m, forCall, |m.params|).Ok? ==>
              ParameterList(m, forCall) == Ok(Join(ListSoFar(m, forCall, |m.params|).value, ", "))
  {
    ListSoFarFails(m, forCall, |m.params|);
    ListSoFarCollects(m, forCall, |m.params|);
    CollectIsMapFilter(m.params, KeepFor(forCall), TextFor(m, forCall), |m.params|);
    assert Indexed(m.params)[..|m.params|] == Indexed(m.params);
  }

  /** One parameter whose class is not loaded makes the declaration list fail. */
  lemma ParameterListFails(m: Method, k: nat)
    requires k < |m.params| && UnloadedClass(m.params[k])
    ensures ParameterList(m, false) == Err(CannotMock(m.declaringClass, m.name))
  {
  }

  /** Once the loop has thrown, the exception is the outcome. */
  lemma {:induction false} ListSoFarErrStays(m: Method, forCall: bool, i: nat, n: nat)
    requires i <= n <= |m.params| && ListSoFar(m, forCall, i).Err?
    ensures ListSoFar(m, forCall, n) == ListSoFar(m, forCall, i)
    decreases n
  {
    if n > i {
      ListSoFarErrStays(m, forCall, i, n - 1);
    }
  }

  /** One turn of the loop at position `i`: the parameter is skipped, its
      text appended, or the exception thrown. */
  method ParameterStep(m: Method, forCall: bool, i: nat, parameters: seq<string>)
    returns (next: Result<seq<string>, Error>)
    requires i < |m.params| && ListSoFar(m, forCall, i) == Ok(parameters)
    ensures next == ListSoFar(m, forCall, i + 1)
  {
    var p := m.params[i];
    if forCall && p.isVariadic {
      return Ok(parameters);
    }
    var piece := Piece(m, p, i, forCall);
    if piece.Err? {
      return Err(piece.error);
    }
    return Ok(parameters + [piece.value]);
  }

  /** The `foreach` of `getMethodParameters`: the texts of the kept
      parameters, or the exception of the first declared parameter whose
      class is not loaded. */
  method CollectParameters(m: Method, forCall: bool) returns (r: Result<seq<string>, Error>)
    ensures r == ListSoFar(m, forCall, |m.params|)
  {
    r := CollectFrom(m, forCall, 0, []);
  }

  /** The loop from position `i` on, with the array built so far. */
  method CollectFrom(m: Method, forCall: bool, i: nat, parameters: seq<string>)
    returns (r: Result<seq<string>, Error>)
    requires i <= |m.params| && ListSoFar(m, forCall, i) == Ok(parameters)
    ensures r == ListSoFar(m, forCall, |m.params|)
    decreases |m.params| - i
  {
    if i == |m.params| {
      return Ok(parameters);
    }
    var next := ParameterStep(m, forCall, i, parameters);
    if next.Err? {
      ListSoFarErrStays(m, forCall, i + 1, |m.params|);
      return next;
    }
    r := CollectFrom(m, forCall, i + 1, next.value);
  }

  /** `getMethodParameters($method, $forCall)`. */
  method GetMethodParameters(m: Method, forCall: bool) returns (r: Result<string, Error>)
    ensures r == ParameterList(m, forCall)
    ensures r.Err? <==> !forCall && exists k :: 0 <= k < |m.params| && UnloadedClass(m.params[k])
    ensures r.Err? ==> r.error == CannotMock(m.declaringClass, m.name)
  {
    var parameters := CollectParameters(m, forCall);
    ListSoFarFails(m, forCall, |m.params|);
    if parameters.Err? {
      return Err(parameters.error);
    }
    ParameterListFromLoop(m, forCall);
    return Ok(Join(parameters.value, ", "));
  }

  /** `$arg<i>` is not the variable of any other position. */
  lemma ArgNamesDiffer(i: nat, j: nat)
    requires i != j
    ensures "$arg" + NatToString(i) != "$arg" + NatToString(j)
  {
    var a := "$arg" + NatToString(i);
    var b := "$arg" + NatToString(j);
    assert a[4..] == NatToString(i) && b[4..] == NatToString(j);
    if a == b {
      NatToStringInjective(i, j);
    }
  }

  /** Two parameters at different positions get different variables when
      their own names differ (or are both replaced) and neither has the form
      `arg<digits>`. */
  lemma VarNamesDiffer(p: Param, i: nat, q: Param, j: nat)
    requires i != j
    requires p.name == q.name ==> p.name == "" || p.name == "..."
    requires forall n: nat :: p.name != "arg" + NatToString(n) && q.name != "arg" + NatToString(n)
    ensures VarName(p, i) != VarName(q, j)
  {
    var a := VarName(p, i);
    var b := VarName(q, j);
    var rp := p.name == "" || p.name == "...";
    var rq := q.name == "" || q.name == "...";
    if rp && rq {
      ArgNamesDiffer(i, j);
    } else if rp {
      assert b[1..] == q.name;
      assert a[1..] == "arg" + NatToString(i);
    } else if rq {
      assert a[1..] == p.name;
      assert b[1..] == "arg" + NatToString(j);
    } else {
      assert a[1..] == p.name && b[1..] == q.name;
    }
  }

  /** Generated variables never collide when the parameters' own names are
      distinct and none of them has the form `arg<digits>`. */
  lemma VarNamesDistinct(ps: seq<Param>)
    requires forall i, j :: 0 <= i < j < |ps| && ps[i].name == ps[j].name ==>
                            ps[i].name == "" || ps[i].name == "..."
    requires forall i, n: nat :: 0 <= i < |ps| ==> ps[i].name != "arg" + NatToString(n)
    ensures forall i, j :: 0 <= i < j < |ps| ==> VarName(ps[i], i) != VarName(ps[j], j)
  {
    forall i, j | 0 <= i < j < |ps| ensures VarName(ps[i], i) != VarName(ps[j], j) {
      VarNamesDiffer(ps[i], i, ps[j], j);
    }
  }

  function VisibilityKeyword(v: Visibility): string {
    match v
    case Public => "public"
    case Private => "private"
    case Protected => "protected"
  }

  /** The modifiers before `function`: `abstract `, the visibility keyword,
      ` static`. */
  function Modifiers(m: Method): string {
    (if m.isAbstract then "abstract " else "")
    + VisibilityKeyword(m.visibility)
    + (if m.isStatic then " static" else "")
  }

  /** The modifiers say `abstract` exactly for an abstract method and
      `static` exactly for a static one. */
  lemma ModifiersShape(m: Method)
    ensures StartsWith(Modifiers(m), "abstract ") <==> m.isAbstract
    ensures EndsWith(Modifiers(m), " static") <==> m.isStatic
  {
    var k := VisibilityKeyword(m.visibility);
    var r := Modifiers(m);
    if m.isAbstract {
      assert r[..9] == "abstract ";
    } else {
      assert r[0] == k[0];
      assert k[0] == 'p' by {
        match m.visibility
        case Public =>
        case Private =>
        case Protected =>
      }
    }
    if m.isStatic {
      assert r[|r| - 7..] == " static";
    } else {
      assert r[|r| - 3] == k[|k| - 3];
      match m.visibility
      case Public => assert k[|k| - 3] == 'l';
      case Private => assert k[|k| - 3] == 'a';
      case Protected => assert k[|k| - 3] == 't' && r[|r| - 2] == 'e';
    }
  }

  /** The return declaration: nothing without a return type, else `: `, a
      `?` for a nullable type, and the qualified type name. */
  function ReturnDeclaration(rt: Option<ReturnType>): (r: string)
    ensures rt.None? <==> r == ""
  {
    match rt
    case None => ""
    case Some(t) => Concat([": ", if t.allowsNull then "?" else "", QualifiedTypeName(t.t)])
  }

  /** A return declaration starts with `: `, has `?` next exactly for a
      nullable type (type names never start with `?`), and ends with the qualified type name. */
  lemma ReturnDeclarationShape(rt: ReturnType)
    requires rt.t.name == "" || rt.t.name[0] != '?'
    ensures StartsWith(ReturnDeclaration(Some(rt)), ": ")
    ensures EndsWith(ReturnDeclaration(Some(rt)), QualifiedTypeName(rt.t))
    ensures rt.allowsNull <==> |ReturnDeclaration(Some(rt))| > 2 && ReturnDeclaration(Some(rt))[2] == '?'
  {
    var n := if rt.allowsNull then "?" else "";
    var q := QualifiedTypeName(rt.t);
    var parts: seq<string> := [": ", n, q];
    ConcatSuffix(parts, 2);
    assert parts[2..] == [q];
    assert parts[1..] == [n, q];
    ConcatPair(n, q);
    var r := ReturnDeclaration(Some(rt));
    assert r == ": " + (n + q);
    assert r[..2] == ": ";
    if !rt.allowsNull && |r| > 2 {
      assert r[2] == q[0];
      if !rt.t.isBuiltin && rt.t.name != "self" {
        assert q[0] == '\\';
      }
    }
  }

  /** `generateMethodWithoutBody($entityMethod)`: a newline, an indented
      declaration with the method's modifiers, name and declaration
      parameter list, the return declaration, and `;`. */
  method GenerateMethodWithoutBody(m: Method) returns (r: Result<string, Error>)
    ensures r.Err? <==> exists k :: 0 <= k < |m.params| && UnloadedClass(m.params[k])
    ensures r.Err? ==> r.error == CannotMock(m.declaringClass, m.name)
    ensures r.Ok? ==>
              StartsWith(r.value, "\n    " + Modifiers(m) + " function " + m.name + "("
                                  + ParameterList(m, false).value + ")")
    ensures r.Ok? ==> EndsWith(r.value, ReturnDeclaration(m.returnType) + ";")
    ensures r.Ok? && m.returnType.None? ==> EndsWith(r.value, ");")
    ensures r.Ok? ==>
              |r.value| == |"\n    " + Modifiers(m) + " function " + m.name + "("
                            + ParameterList(m, false).value + ")"|
                           + |ReturnDeclaration(m.returnType)| + 1
  {
    var parametersString := GetMethodParameters(m, false);
    if parametersString.Err? {
      return Err(parametersString.error);
    }
    var head := "\n    " + Modifiers(m) + " function " + m.name + "(" + parametersString.value + ")";
    var returnPart := ReturnDeclaration(m.returnType);
    var tail := returnPart + ";";
    var definition := head + tail;
    ConcatEnds(head, tail);
    if m.returnType.None? {
      assert head[|head| - 1] == ')';
      assert definition[|definition| - 2..] == ");";
    }
    return Ok(definition);
  }
}

=== FILE: wrappers.dfy ===
/** Result types shared by the model: `Option` stands for the PHP
    `null`/`false` sentinels, `Result` for calls that may throw. */
module Wrappers {

  datatype Option<+T> = None | Some(value: T)

  datatype Result<+T, +E> = Ok(value: T) | Err(error: E)
}
